=== FILE: README.md ===
# Point-region octree and quicksort, modelled in Dafny

This project models two parts of the GBTL Java library.

**`OctreePRCube<E>`** is a point-region octree over an integer cube. It stores
`(value, x, y, z)` elements in cells. A cell is either a leaf holding an
ordered element list or an internal node with exactly eight children. Points
are routed to children by comparing each coordinate with the cell centre,
and a coordinate equal to the centre goes to the `>=` side. The tree works
as follows:

- **Insertion.** An insertion descends to the routed leaf. A leaf that is
  full (size equal to the capacity) and above the depth ceiling is split, and
  the split repeats while the element's octant is full again.
- **Removal by value.** It deletes the first match in depth-first order and
  never merges.
- **Removal by coordinates.** It deletes from the routed leaf only. It then
  tries the merge rule on the root: a node whose eight children are all leaves
  holding exactly `capacity` elements becomes one leaf.
- **Queries.** Criterion queries prune by a caller-supplied classification of
  each cell's box.

**`QuickSort`** is an in-place Lomuto-style quicksort. It partitions around
the first entry of the range, swaps the pivot into place and recurses on
both sides.

The octree is modelled functionally:

- A `Cell<E>` datatype is either a `Leaf` or a `Node`.
- Every operation is a pure function that returns the new tree.
- A ghost invariant `Valid` holds:
  - depths run from 1 to the ceiling;
  - every node has eight children, placed by the split geometry;
  - each element of child `i` is routed to `i` by its parent's centre.
- `Bounded` is the capacity bound.

The quicksort is modelled as array methods with loop invariants and
`modifies` frames.

The modules follow the source's structure:

| module | file | content |
|---|---|---|
| `Geometry` | geometry.dfy | points, routing, the child-centre sign table |
| `Cells` | cells.dfy | cells, the element order, the invariant, `getCell`, `contains` |
| `Split` | split.dfy | `divideCell` |
| `Insertion` | insert.dfy | `addRecursive` and the descent of `add` |
| `Removal` | removal.dfy | both removals, `removeElementFromCell`, `mergeCellsIfNeeded` |
| `Query` | query.dfy | `getElements` and `getElementsNew` |
| `Cascade` | cascade.dfy | the coordinate removal with the merge tried at every level |
| `Octree` | octree.dfy | the public operations on the whole tree, and the examples |
| `QuickSort` | quicksort.dfy | `swap`, the partition loop, `sort`, `quickSort` |

The recursive shape of `remove(cell, value, x, y, z)` suggests that the
merge check runs at each level on the way back up. The code, however, calls
`getCell` from the root (line 400), so the merge at line 404 only ever runs
on the root. The model follows the code in `Octree.RemoveAt`. The cascading
behaviour is a separate, corrected operation, listed under Findings.

## Model

| member | source | states |
|---|---|---|
| Geometry.Half | GBTL/src/main/java/dataStructures/OctreePRCube.java:211 | the halved range is Java's truncating `n / 2`: the remainder `n - 2 * h` is 0 or 1 for non-negative `n` and 0 or -1 for negative `n`, so it takes the sign of `n` |
| Geometry.Octant | GBTL/src/main/java/dataStructures/OctreePRCube.java:333-354 | the routing index is below 8 and its three bits are fixed by the three `>=` comparisons with the centre |
| Geometry.ChildCenter | GBTL/src/main/java/dataStructures/OctreePRCube.java:211-229 | the per-child centre table equals the sign convention `Offset` derived from the index bits |
| Geometry.OffsetRoutesBack | GBTL/src/main/java/dataStructures/OctreePRCube.java:221-254 | a positive offset in child `i`'s direction is routed back to child `i`, so the centre table and routing agree |
| Geometry.RoutedPointInChildBox | GBTL/src/main/java/dataStructures/OctreePRCube.java:209-229 | with an even range, a point in a cell's box is in the box of the child it is routed to |
| Geometry.OddRangeLeavesGap | GBTL/src/main/java/dataStructures/OctreePRCube.java:211 | with range 1, the point (1, 1, 1) lies in the cell's box but outside the box of the child it is routed to, because the halved range truncates to 0 |
| Cells.GetCell | GBTL/src/main/java/dataStructures/OctreePRCube.java:325-358 | `getCell` descends by the routing rule to a leaf; `Cells.RoutedFindsElement` and `Cells.GetCellElementsStored` state which elements that leaf holds |
| Cells.CornerPos | GBTL/src/main/java/dataStructures/OctreePRCube.java:63-111 | corner `i` of a cell's box follows the octant sign convention `Offset` with the cell's range, and any other index gives the origin; `Cells.CornerMatchesChildOffset` relates it to routing |
| Cells.GetCellElementsStored | GBTL/src/main/java/dataStructures/OctreePRCube.java:325-358 | the leaf that `getCell` reaches holds only elements of the tree |
| Cells.RoutedFindsElement | GBTL/src/main/java/dataStructures/OctreePRCube.java:325-358 | in a valid tree every stored element is in the leaf that routing its own coordinates reaches |
| Cells.CornerMatchesChildOffset | GBTL/src/main/java/dataStructures/OctreePRCube.java:63-111 | corner `i` uses the same sign convention as child centre `i` and, for a positive range, is routed to octant `i` |
| Cells.ContainsValue | GBTL/src/main/java/dataStructures/OctreePRCube.java:294-311 | the leaf-by-leaf search answers true exactly when some element of the subtree carries the value |
| Cells.AnyChildContains | GBTL/src/main/java/dataStructures/OctreePRCube.java:306-310 | the loop over children from index `k` answers true exactly when some child from `k` on holds the value |
| Cells.LeafHolds | GBTL/src/main/java/dataStructures/OctreePRCube.java:317-322 | the scan of one leaf answers true exactly when some element of the list carries the value |
| Split.Filter | GBTL/src/main/java/dataStructures/OctreePRCube.java:231-255 | the elements a split sends to child `i` come from the list and are routed to `i`, and every element of the list routed to `i` is among them |
| Split.FilterCount | GBTL/src/main/java/dataStructures/OctreePRCube.java:231-255 | each element goes, with all its copies, to the child of its own octant and to no other |
| Split.Distribute | GBTL/src/main/java/dataStructures/OctreePRCube.java:231-255 | the redistribution loop appends to each child exactly the list's elements routed to it, in order |
| Split.PartitionMultiset | GBTL/src/main/java/dataStructures/OctreePRCube.java:231-257 | the eight children of a split hold together exactly the parent's elements |
| Split.Divide | GBTL/src/main/java/dataStructures/OctreePRCube.java:209-258 | a split leaf becomes a node with the same geometry and eight leaves at depth + 1; each child has the table's centre, the halved range and the elements routed to it, and no element is lost or gained |
| Split.DivideValid | GBTL/src/main/java/dataStructures/OctreePRCube.java:209-258 | splitting above the ceiling gives a valid node, and a leaf within capacity gives children within capacity |
| Insertion.AddRecursive | GBTL/src/main/java/dataStructures/OctreePRCube.java:173-207 | the cell keeps its geometry, gains exactly the new element, and stays valid |
| Insertion.InsertCell | GBTL/src/main/java/dataStructures/OctreePRCube.java:134-171 | descent plus `addRecursive` keeps the geometry, adds exactly one element, and keeps the invariant; at a node only the routed child changes, and it changes by the same insertion |
| Insertion.AddRecursiveBounded | GBTL/src/main/java/dataStructures/OctreePRCube.java:173-207 | `addRecursive` keeps the capacity bound: every leaf above the depth ceiling holds at most `capacity` elements |
| Insertion.InsertCellBounded | GBTL/src/main/java/dataStructures/OctreePRCube.java:134-171 | insertion keeps the capacity bound |
| Insertion.AddRecursiveEndsLeaf | GBTL/src/main/java/dataStructures/OctreePRCube.java:173-206 | whatever splits happen, the new element ends up last in the leaf its coordinates route to |
| Insertion.InsertEndsLeaf | GBTL/src/main/java/dataStructures/OctreePRCube.java:134-206 | after the whole insertion the new element is the last element of its routed leaf |
| Insertion.InsertAppendsLast | GBTL/src/main/java/dataStructures/OctreePRCube.java:134-206 | when the routed leaf is below capacity or at the depth ceiling, that leaf becomes its old list with the new element appended |
| Insertion.InsertedIsRouted | GBTL/src/main/java/dataStructures/OctreePRCube.java:134-171 | after insertion the new element is in the leaf that routing its coordinates reaches |
| Removal.RemoveFirst | GBTL/src/main/java/dataStructures/OctreePRCube.java:582-596 | the iterator removal succeeds exactly when some element has the value; it then removes one copy of the first match and leaves the list unchanged otherwise |
| Removal.RemoveFirstDeletesFirstMatch | GBTL/src/main/java/dataStructures/OctreePRCube.java:582-596 | the list after removal is the list with the first matching position cut out |
| Removal.RemoveFirstAppend | GBTL/src/main/java/dataStructures/OctreePRCube.java:380-386 | removing from a concatenation removes from the first part if it has a match, otherwise from the second part |
| Removal.RemoveValue | GBTL/src/main/java/dataStructures/OctreePRCube.java:365-389 | `remove(value, cell)` succeeds exactly when the subtree holds the value; the depth-first element sequence loses exactly its first match; the cell keeps its kind, geometry and number of children; a failure returns the cell unchanged |
| Removal.RemoveValueKeepsShape | GBTL/src/main/java/dataStructures/OctreePRCube.java:365-389 | `remove(value, cell)` never merges: the result has the same cell structure as the input at every level |
| Removal.RemoveFromChildren | GBTL/src/main/java/dataStructures/OctreePRCube.java:380-386 | the child loop from index `k` leaves children before `k` alone, replaces any other child only by its own removal result, succeeds exactly when children `k` and later hold the value, and removes the first match among them; a failure leaves every child unchanged |
| Removal.RemoveValueValid | GBTL/src/main/java/dataStructures/OctreePRCube.java:365-389 | removal by value keeps the invariant and the capacity bound |
| Removal.RemoveAtLeaf | GBTL/src/main/java/dataStructures/OctreePRCube.java:396-410 | it succeeds exactly when the leaf that the point routes to holds the value; that leaf then loses its first match, the tree loses exactly that element, and the cell keeps its kind and geometry; the result is `Cells.EditedAlong` the original: every cell keeps its kind and geometry and every child off the routed path is unchanged, so only the routed leaf's list differs; a failure changes nothing |
| Removal.RemoveAtLeafValid | GBTL/src/main/java/dataStructures/OctreePRCube.java:396-410 | the routed-leaf edit keeps the invariant and the capacity bound |
| Removal.LeafSizes | GBTL/src/main/java/dataStructures/OctreePRCube.java:419-424 | the size loop over leaf children counts exactly their elements |
| Removal.MergeIfNeeded | GBTL/src/main/java/dataStructures/OctreePRCube.java:412-434 | a node becomes a leaf exactly when all its children are leaves holding `capacity` elements in total; the merged list is children 0..7 in order, and any other node is returned unchanged |
| Removal.MergeValid | GBTL/src/main/java/dataStructures/OctreePRCube.java:412-434 | merging keeps the invariant and the capacity bound |
| Query.AllValues | GBTL/src/main/java/dataStructures/OctreePRCube.java:487-507 | the unfiltered traversal returns every value of the subtree in depth-first, child-ascending order |
| Query.GetElements | GBTL/src/main/java/dataStructures/OctreePRCube.java:441-485 | OUTSIDE gives nothing, INSIDE gives all values, a PARTIAL leaf gives its own values, and every result is a sub-multiset of the subtree's values; `Query.GetElementsReached` pins the PARTIAL-node case |
| Query.GetElementsOfChildren | GBTL/src/main/java/dataStructures/OctreePRCube.java:476-479 | the PARTIAL child loop returns a sub-multiset of the children's values |
| Query.ReachingCount | GBTL/src/main/java/dataStructures/OctreePRCube.java:441-485 | the reference selection keeps every element whose routing path is reached, as often as it occurs, and no other |
| Query.GetElementsReached | GBTL/src/main/java/dataStructures/OctreePRCube.java:441-485 | on a valid subtree the criterion query returns, in depth-first order, the values of exactly the elements whose routing path meets an INSIDE cell or a PARTIAL leaf before any OUTSIDE cell |
| Query.GetElementsReachedChildren | GBTL/src/main/java/dataStructures/OctreePRCube.java:474-480 | through a PARTIAL node, the children's results concatenated in index order are the selection of the node's elements |
| Query.NeverOutsideReturnsAll | GBTL/src/main/java/dataStructures/OctreePRCube.java:441-507 | a criterion that never answers OUTSIDE returns every stored value exactly once, in depth-first order |
| Query.CollectAll | GBTL/src/main/java/dataStructures/OctreePRCube.java:554-570 | the INSIDE helper lists the subtree's leaves, whose elements in order are the subtree's elements, and returns their count |
| Query.CollectLeaves | GBTL/src/main/java/dataStructures/OctreePRCube.java:528-552 | the criterion helper lists only leaves; its count is their number of elements, and their values are what `getElements` returns |
| Query.GetElementsNew | GBTL/src/main/java/dataStructures/OctreePRCube.java:509-526 | `getElementsNew` returns the same sequence as `getElements`, and the helper's count is its length |
| Cascade.MergeSettles | GBTL/src/main/java/dataStructures/OctreePRCube.java:412-434 | after the merge rule a node either became a leaf or was not mergeable |
| Cascade.RemoveCascading | GBTL/src/main/java/dataStructures/OctreePRCube.java:396-410 | the removal tries the merge on every cell of the path; it succeeds exactly when the routed leaf holds the value, and afterwards no cell on the path is left mergeable |
| Cascade.CascadeSameElements | GBTL/src/main/java/dataStructures/OctreePRCube.java:396-434 | the cascading removal leaves the same element sequence as the as-written edit: merging only regroups elements |
| Cascade.CascadeValid | GBTL/src/main/java/dataStructures/OctreePRCube.java:396-434 | the cascading removal keeps the invariant and the capacity bound |
| Octree.NewCube | GBTL/src/main/java/dataStructures/OctreePRCube.java:18-25 | for a non-negative capacity the cube constructor gives bounds `[-range, range]`, an empty valid and bounded root whose box covers every accepted point, and size 0 |
| Octree.NewBounded | GBTL/src/main/java/dataStructures/OctreePRCube.java:27-34 | for a non-negative capacity, the bounded constructor as written: the given bounds, an empty valid and bounded root centred at `(max - min) / 2` |
| Octree.BoundedRootMissesUniverse | GBTL/src/main/java/dataStructures/OctreePRCube.java:33 | with bounds [10, 20] the point (20, 20, 20) passes the bounds test but lies outside that root's box |
| Octree.NewBoundedCentered | GBTL/src/main/java/dataStructures/OctreePRCube.java:27-34 | with the root centred at the midpoint, the root box covers every point the bounds test accepts |
| Octree.Add | GBTL/src/main/java/dataStructures/OctreePRCube.java:134-171 | `add` succeeds exactly for in-bounds points; a rejection changes nothing; a success adds exactly that element, grows the size by one, keeps the invariant, and makes `contains(v, x, y, z)` true; the new root is the routed insertion `Insertion.InsertCell`, which changes only the routed path |
| Octree.AddAppendsLast | GBTL/src/main/java/dataStructures/OctreePRCube.java:134-206 | `add` puts the new element last in the leaf its coordinates reach, and when that leaf was below capacity or at the depth ceiling the leaf is its old list with the element appended |
| Octree.AddKeepsInvariant | GBTL/src/main/java/dataStructures/OctreePRCube.java:134-171 | insertion keeps the tree invariant, including the bounds of every stored element |
| Octree.AddKeepsBound | GBTL/src/main/java/dataStructures/OctreePRCube.java:134-207 | insertion keeps the capacity bound of the whole tree |
| Octree.ContainsValue | GBTL/src/main/java/dataStructures/OctreePRCube.java:289-311 | `contains(v)` is true exactly when some stored element carries `v` |
| Octree.ContainsAt | GBTL/src/main/java/dataStructures/OctreePRCube.java:313-323 | the answer is true exactly when the leaf that (x, y, z) routes to holds an element with value `v`, and a true answer implies `contains(v)` |
| Octree.RoutedValueIsStored | GBTL/src/main/java/dataStructures/OctreePRCube.java:313-358 | a value found in the leaf that a point routes to is a value stored in the tree |
| Octree.ContainsAtFindsStored | GBTL/src/main/java/dataStructures/OctreePRCube.java:313-358 | every stored element is found by `contains` at its own coordinates |
| Octree.ContainsAtIgnoresCoordinates | GBTL/src/main/java/dataStructures/OctreePRCube.java:317-322 | `contains(v, x, y, z)` compares values only: a value stored at (0, 0, 0) answers for (5, 5, 5) |
| Octree.RemoveValue | GBTL/src/main/java/dataStructures/OctreePRCube.java:360-389 | `remove(v)` succeeds exactly when `contains(v)`; it deletes the first match in depth-first order, shrinks the size by one only on success, and keeps the invariant; a failure returns the tree unchanged, and the new root is the cell-level removal, with no merge |
| Octree.RemoveValueNeverMerges | GBTL/src/main/java/dataStructures/OctreePRCube.java:360-389 | after `remove(v)` every cell of the tree keeps its kind and geometry and every node its children count: no merge happens at any level |
| Octree.RemoveAt | GBTL/src/main/java/dataStructures/OctreePRCube.java:391-410 | `remove(v, x, y, z)` succeeds exactly when `contains(v, x, y, z)`; on success one element with value `v` is gone, and an internal root becomes a leaf exactly when all its children were leaves and the new size equals the capacity; the remaining elements keep their depth-first order, which is that of the routed-leaf edit (a merged root lists children 0 to 7 in order); a failure changes nothing; the invariant holds |
| Octree.RootMergeRule | GBTL/src/main/java/dataStructures/OctreePRCube.java:400-405 | after the routed-leaf edit the root's children keep their kinds, so the root merges exactly when all its original children were leaves and `capacity` elements remain |
| Octree.RemoveAtMergesOnlyRoot | GBTL/src/main/java/dataStructures/OctreePRCube.java:396-410 | a root that stays a node after a successful coordinate removal is exactly the routed-leaf edit, with no cell below the root merged or otherwise changed off the routed leaf |
| Octree.RemoveAtKeepsInvariant | GBTL/src/main/java/dataStructures/OctreePRCube.java:391-434 | the routed edit and the root merge keep the invariant and the capacity bound |
| Octree.RemovalsKeepBound | GBTL/src/main/java/dataStructures/OctreePRCube.java:360-434 | both removals keep the capacity bound |
| Octree.RemoveAtCascading | GBTL/src/main/java/dataStructures/OctreePRCube.java:391-410 | the corrected removal succeeds exactly when the as-written one does and removes the same element; the remaining elements keep the depth-first order of the routed-leaf edit; no mergeable cell is left on the path; the invariant holds |
| Octree.CascadingKeepsBound | GBTL/src/main/java/dataStructures/OctreePRCube.java:391-434 | the corrected removal keeps the capacity bound |
| Octree.MergeOnlyAtRoot | GBTL/src/main/java/dataStructures/OctreePRCube.java:396-410 | with capacity 1 and depth ceiling 3, after inserting two values at (6, 6, 6) and removing one there, the as-written removal leaves a mergeable child of the root; the cascading removal leaves one leaf |
| Octree.AddThenRemoveAt | GBTL/src/main/java/dataStructures/OctreePRCube.java:391-410 | a coordinate removal right after a successful `add` at the same point succeeds and restores the size; if the value was absent before, the contents are restored and the value is absent again |
| Octree.GetElements | GBTL/src/main/java/dataStructures/OctreePRCube.java:436-439 | a query on the whole tree returns nothing for an OUTSIDE root, everything for an INSIDE root, and a sub-multiset of the stored values otherwise |
| Octree.GetElementsReached | GBTL/src/main/java/dataStructures/OctreePRCube.java:436-485 | on a valid tree the query returns the values of exactly the stored elements whose routing path is reached by the criterion, in depth-first order |
| Octree.GetElementsNew | GBTL/src/main/java/dataStructures/OctreePRCube.java:509-526 | the collect-then-read query returns the same sequence as `getElements` |
| Octree.AllInsideReturnsEverything | GBTL/src/main/java/dataStructures/OctreePRCube.java:441-507 | a criterion that classifies every cell as INSIDE returns every stored value once, as many values as the tree holds |
| QuickSort.Swap | GBTL/src/main/java/sortingAlgorithms/QuickSort.java:34-39 | the two entries are exchanged, no other entry changes, and the contents are preserved |
| QuickSort.Partition | GBTL/src/main/java/sortingAlgorithms/QuickSort.java:14-27 | the pivot `array[left]` ends at `pivotIndex`, with smaller entries before it and entries at least as large after it; only the range changes and its contents are permuted |
| QuickSort.Sort | GBTL/src/main/java/sortingAlgorithms/QuickSort.java:10-32 | the range ends sorted and permuted; entries outside it do not change; a range of at most one entry is left as it is |
| QuickSort.SortedJoin | GBTL/src/main/java/sortingAlgorithms/QuickSort.java:26-30 | the sorted sides around the pivot slot make a sorted, permuted range with the outside unchanged |
| QuickSort.JoinSorted | GBTL/src/main/java/sortingAlgorithms/QuickSort.java:26-30 | smaller sorted entries, the pivot, and larger-or-equal sorted entries form a sorted range |
| QuickSort.Quicksort | GBTL/src/main/java/sortingAlgorithms/QuickSort.java:5-8 | the whole array ends sorted and a permutation of its input; arrays of length 0 or 1 are unchanged |

## Left out

- Text rendering is not modelled, because it only builds diagnostic strings. This covers `toString`, `getStringRepresentation`, `isEmptyLeaf` and `OctreeElement.toString`.
- Java collection and reflection plumbing is replaced by `seq` and datatypes. This covers `Array.newInstance`, `ArrayList`, `LinkedList` and `Iterator`.
- Every operation returns a new tree instead of mutating cells in place. No reference to a cell outlives an operation in the source, so aliasing is not modelled.
- `E.equals` is modelled as Dafny equality on a type with `==`. Null values, and equality that is not an equivalence, are not modelled.
- Coordinates, centres and ranges are unbounded integers. Overflow of `long` in `center ± range` and in `max - min` is not modelled.
- Quicksort entries are unbounded integers. The sort only compares them, so Java's 32-bit `int` makes no difference.
- A criterion is a function of a cell's centre and range. That is the geometry a criterion can read through `getCenterPos`, `getRange` and `getCornerPos`. Concrete criteria are the caller's. The `default` branches of the query switches cannot be reached with three enum values.
- The accessors `getCenterPos` and `getRange` are the datatype fields `center` and `range`.
- The inline first split in `add` is one unrolling of `addRecursive`, so `Insertion.InsertCell` uses `AddRecursive` for both.
- `Octree.Add` requires the tree invariant, which includes `1 <= maxDepth`, so trees whose depth ceiling lies below the root's depth are not modelled at all. In the source such a tree works for a while: while the leaf is below capacity, `add` just appends (line 206). A full leaf splits, and `addRecursive` (line 177) continues only while the new element's child is full again. It never stops for capacity 0, whose empty children always count as full. It also never stops once `cellCapacity` stored elements share the new element's octant at every level, for example `cellCapacity + 1` elements at the same coordinates.
- `Octree.RemoveAt` requires the tree invariant. The same holds for both removals, so that routing always finds eight children.
- `QuickSort.Sort` requires `0 <= left <= right + 1 <= array.length`. `quickSort` and the two recursive calls satisfy this, and `sort` is private.
- Octree.NewCube, Octree.NewBounded and Octree.NewBoundedCentered require `0 <= capacity`. In the source, each cell's element list is created as `new ArrayList<>(cellCapacity)` (line 40), which throws `IllegalArgumentException` for a negative capacity, so no tree is built. The precondition models that exception.
- `TestHeapSort.java` tests `HeapSort` and `TestUtils`, which are not part of this model.

## Findings

| source | as written | input that shows it | evidently intended | confidence | as-written member | corrected member |
|---|---|---|---|---|---|---|
| GBTL/src/main/java/dataStructures/OctreePRCube.java:33 | the bounded constructor centres the root at `(max - min) / 2` on each axis, with half-width `max - min` | bounds [10, 20]: the root box spans [-5, 15], but `add` accepts (20, 20, 20), which lies outside it, so a geometric criterion can prune the root and miss stored points | centre at the midpoint `(min + max) / 2`, so the root box covers `[min, max]` | medium, not executed | Octree.NewBounded | Octree.NewBoundedCentered |
| GBTL/src/main/java/dataStructures/OctreePRCube.java:396-410 | the coordinate removal calls `getCell` from the root and then tries the merge on the root only | capacity 1, depth ceiling 3, insert values 1 and 2 at (6, 6, 6), then remove 1 there: child 0 of the root stays a node whose leaves hold one element in total | the merge is tried on each cell of the path on the way back up, as the recursive shape of the removal suggests | medium, not executed | Octree.MergeOnlyAtRoot | Octree.RemoveAtCascading |

=== FILE: cascade.dfy ===
/** The coordinate-directed removal with the merge rule tried on every cell of
    the routing path, innermost first, as the recursive shape of the removal
    suggests it was meant to work: each frame removes from the child the point
    routes to and, on success, tries the merge rule on its own cell. */
module Cascade {
  import opened Geometry
  import opened Cells
  import opened Removal

  /** A node the merge rule would collapse: all children are leaves and they
      hold exactly `capacity` elements between them. */
  predicate Mergeable<E>(capacity: int, c: Cell<E>)
  {
    c.Node? && (forall i :: 0 <= i < |c.children| ==> c.children[i].Leaf?) && |Elements(c)| == capacity
  }

  /** No cell on the path that `p` routes along is left mergeable. */
  predicate PathSettled<E>(capacity: int, c: Cell<E>, p: Point)
    requires Shaped(c)
    decreases c
  {
    c.Node? ==> !Mergeable(capacity, c) && PathSettled(capacity, c.children[Octant(c.center, p)], p)
  }

  /** The merge rule applied to a node either collapses it or leaves a node
      that is not mergeable. */
  lemma MergeSettles<E>(capacity: int, c: Cell<E>)
    requires c.Node?
    ensures MergeIfNeeded(capacity, c).Node? ==> !Mergeable(capacity, c)
    ensures MergeIfNeeded(capacity, c).Leaf? ==> Mergeable(capacity, c)
  {
  }

  /** Removal with the merge rule tried on the way back up at every level. It
      deletes the same element as the as-written removal and leaves no
      mergeable cell on the path behind. */
  function RemoveCascading<E(==)>(capacity: int, c: Cell<E>, p: Point, v: E): (r: (Cell<E>, bool))
    requires Shaped(c)
    ensures Shaped(r.0)
    ensures r.1 <==> HasValue(GetCell(c, p).elements, v)
    ensures !r.1 ==> r.0 == c
    ensures r.1 ==> PathSettled(capacity, r.0, p)
    ensures r.0.center == c.center && r.0.range == c.range && r.0.depth == c.depth
    decreases c
  {
    match c
    case Leaf(_, _, _, es) =>
      var (es', found) := RemoveFirst(es, v);
      (c.(elements := es'), found)
    case Node(center, _, _, cs) =>
      var i := Octant(center, p);
      var (child, found) := RemoveCascading(capacity, cs[i], p, v);
      if found then
        var n := c.(children := cs[i := child]);
        MergeSettles(capacity, n);
        (MergeIfNeeded(capacity, n), true)
      else
        (c, false)
  }

  /** One step of the cascading removal at a node: recurse into the routed
      child and, on success, try the merge rule on this node. */
  lemma CascadeStep<E>(capacity: int, c: Cell<E>, p: Point, v: E)
    requires c.Node? && Shaped(c)
    ensures var i := Octant(c.center, p); var (child, found) := RemoveCascading(capacity, c.children[i], p, v);
      RemoveCascading(capacity, c, p, v) == if found then (MergeIfNeeded(capacity, c.(children := c.children[i := child])), true) else (c, false)
  {
  }

  /** Merging only regroups elements: the cascading removal leaves the same
      element sequence as the as-written edit of the routed leaf. */
  lemma {:induction false} CascadeSameElements<E>(capacity: int, c: Cell<E>, p: Point, v: E)
    requires Shaped(c)
    ensures Elements(RemoveCascading(capacity, c, p, v).0) == Elements(RemoveAtLeaf(c, p, v).0)
    decreases c
  {
    if c.Node? {
      var i := Octant(c.center, p);
      var cs := c.children;
      CascadeSameElements(capacity, cs[i], p, v);
      var a := RemoveCascading(capacity, cs[i], p, v).0;
      var b := RemoveAtLeaf(cs[i], p, v).0;
      if RemoveAtLeaf(cs[i], p, v).1 {
        ElementsOfAllUpdate(cs, i, a);
        ElementsOfAllUpdate(cs, i, b);
      }
    }
  }

  /** The cascading removal keeps the structural invariant and the capacity
      bound: a merged cell held exactly `capacity` elements, all routed to it
      by its parent. */
  lemma {:induction false} CascadeValid<E>(capacity: int, maxDepth: int, c: Cell<E>, p: Point, v: E)
    requires Valid(c, maxDepth)
    ensures Shaped(c) && Valid(RemoveCascading(capacity, c, p, v).0, maxDepth)
    ensures Shaped(c) && (Bounded(c, capacity, maxDepth) ==> Bounded(RemoveCascading(capacity, c, p, v).0, capacity, maxDepth))
    decreases c
  {
    ValidIsShaped(c, maxDepth);
    var r := RemoveCascading(capacity, c, p, v);
    if c.Node? && r.1 {
      var cs := c.children;
      var i := Octant(c.center, p);
      ValidIsShaped(cs[i], maxDepth);
      CascadeValid(capacity, maxDepth, cs[i], p, v);
      CascadeSameElements(capacity, cs[i], p, v);
      RemoveAtLeafValid(cs[i], p, v, capacity, maxDepth);
      var child := RemoveCascading(capacity, cs[i], p, v).0;
      assert RemoveAtLeaf(cs[i], p, v).1;
      forall x | x in Elements(child)
        ensures x in Elements(cs[i])
      {
        assert multiset(Elements(RemoveAtLeaf(cs[i], p, v).0))[x] > 0;
        assert multiset(Elements(cs[i]))[x] > 0;
      }
      var n := c.(children := cs[i := child]);
      ReplaceChild(c, maxDepth, capacity, i, child);
      if Bounded(c, capacity, maxDepth) {
        MergeValid(capacity, maxDepth, n);
      } else {
        MergeKeepsValid(capacity, maxDepth, n);
      }
    }
  }

  /** The merge rule keeps the structural invariant on its own. */
  lemma MergeKeepsValid<E>(capacity: int, maxDepth: int, c: Cell<E>)
    requires c.Node? && Valid(c, maxDepth)
    ensures Valid(MergeIfNeeded(capacity, c), maxDepth)
  {
  }
}

=== FILE: cells.dfy ===
/** Cells and elements of the point-region octree, the depth-first element
    order, the structural invariant, and the two read-only descents: routing a
    point to its leaf and searching every leaf for a value. */
module Cells {
  import opened Geometry

  /** A stored element: a payload value and the coordinates it was inserted at. */
  datatype Elem<E> = Elem(value: E, x: int, y: int, z: int)
  {
    function Pos(): Point
    {
      Point(x, y, z)
    }
  }

  /** A cell owns its centre, its half-width `range` and its depth, and is
      either a leaf holding an ordered element list or an internal node
      holding (in a well-formed tree) exactly eight children. */
  datatype Cell<E> =
    | Leaf(center: Point, range: int, depth: int, elements: seq<Elem<E>>)
    | Node(center: Point, range: int, depth: int, children: seq<Cell<E>>)

  /** All elements of a subtree in depth-first, child 0..7 order. */
  function Elements<E>(c: Cell<E>): seq<Elem<E>>
    decreases c, 1
  {
    match c
    case Leaf(_, _, _, es) => es
    case Node(_, _, _, cs) => ElementsOfAll(cs)
  }

  function ElementsOfAll<E>(cs: seq<Cell<E>>): seq<Elem<E>>
    decreases cs, 0
  {
    if |cs| == 0 then [] else Elements(cs[0]) + ElementsOfAll(cs[1..])
  }

  /** The payload values of a list of elements, in order. */
  function Values<E>(es: seq<Elem<E>>): (vs: seq<E>)
    ensures |vs| == |es|
    ensures forall k :: 0 <= k < |es| ==> vs[k] == es[k].value
  {
    if |es| == 0 then [] else [es[0].value] + Values(es[1..])
  }

  lemma {:induction false} ValuesAppend<E>(a: seq<Elem<E>>, b: seq<Elem<E>>)
    ensures Values(a + b) == Values(a) + Values(b)
  {
  }

  /** Some element of `es` carries value `v`. */
  ghost predicate HasValue<E>(es: seq<Elem<E>>, v: E)
  {
    exists e :: e in es && e.value == v
  }

  lemma {:induction false} ElementsOfAllAppend<E>(a: seq<Cell<E>>, b: seq<Cell<E>>)
    ensures ElementsOfAll(a + b) == ElementsOfAll(a) + ElementsOfAll(b)
    decreases |a|
  {
    if |a| == 0 {
      assert a + b == b;
    } else {
      assert (a + b)[1..] == a[1..] + b;
      ElementsOfAllAppend(a[1..], b);
    }
  }

  /** The elements of a node split around one child. */
  lemma {:induction false} ElementsOfAllAround<E>(cs: seq<Cell<E>>, i: nat)
    requires i < |cs|
    ensures ElementsOfAll(cs) == ElementsOfAll(cs[..i]) + Elements(cs[i]) + ElementsOfAll(cs[i + 1..])
  {
    var tail := [cs[i]] + cs[i + 1..];
    assert cs == cs[..i] + tail;
    ElementsOfAllAppend(cs[..i], tail);
    assert tail[0] == cs[i];
    assert tail[1..] == cs[i + 1..];
    assert ElementsOfAll(tail) == Elements(cs[i]) + ElementsOfAll(cs[i + 1..]);
  }

  /** Replacing one child replaces exactly that child's share of the elements. */
  lemma {:induction false} ElementsOfAllUpdate<E>(cs: seq<Cell<E>>, i: nat, c: Cell<E>)
    requires i < |cs|
    ensures ElementsOfAll(cs[i := c]) == ElementsOfAll(cs[..i]) + Elements(c) + ElementsOfAll(cs[i + 1..])
    ensures multiset(ElementsOfAll(cs[i := c])) == multiset(ElementsOfAll(cs)) - multiset(Elements(cs[i])) + multiset(Elements(c))
  {
    ElementsOfAllAround(cs[i := c], i);
    assert cs[i := c][..i] == cs[..i];
    assert cs[i := c][i + 1..] == cs[i + 1..];
    ElementsOfAllAround(cs, i);
  }

  /** An element of a node belongs to exactly the children it occurs in. */
  lemma {:induction false} InElementsOfAll<E>(cs: seq<Cell<E>>, e: Elem<E>)
    ensures e in ElementsOfAll(cs) <==> exists j :: 0 <= j < |cs| && e in Elements(cs[j])
    decreases |cs|
  {
    if |cs| > 0 {
      InElementsOfAll(cs[1..], e);
      if e in ElementsOfAll(cs[1..]) {
        var j :| 0 <= j < |cs[1..]| && e in Elements(cs[1..][j]);
        assert e in Elements(cs[j + 1]);
      }
      if j :| 0 <= j < |cs| && e in Elements(cs[j]) {
        if j > 0 {
          assert e in Elements(cs[1..][j - 1]);
        }
      }
    }
  }

  /** The structural invariant of a subtree under depth ceiling `maxDepth`:
      depths run from 1 to `maxDepth` and grow by one per level; every node has
      eight children laid out by the split geometry; and every element of child
      `i` is routed to octant `i` by its parent's centre. */
  ghost predicate Valid<E>(c: Cell<E>, maxDepth: int)
    decreases c
  {
    && 1 <= c.depth <= maxDepth
    && match c
       case Leaf(_, _, _, _) => true
       case Node(center, range, depth, cs) =>
         && |cs| == 8
         && forall i: nat :: i < 8 ==>
              && cs[i].depth == depth + 1
              && cs[i].center == ChildCenter(center, Half(range), i)
              && cs[i].range == Half(range)
              && Valid(cs[i], maxDepth)
              && (forall e :: e in Elements(cs[i]) ==> Octant(center, e.Pos()) == i)
  }

  /** Every node has exactly eight children: what routing needs to index them. */
  predicate Shaped<E>(c: Cell<E>)
    decreases c
  {
    match c
    case Leaf(_, _, _, _) => true
    case Node(_, _, _, cs) => |cs| == 8 && forall i :: 0 <= i < 8 ==> Shaped(cs[i])
  }

  lemma {:induction false} ValidIsShaped<E>(c: Cell<E>, maxDepth: int)
    requires Valid(c, maxDepth)
    ensures Shaped(c)
    decreases c
  {
    if c.Node? {
      forall i | 0 <= i < 8
        ensures Shaped(c.children[i])
      {
        ValidIsShaped(c.children[i], maxDepth);
      }
    }
  }

  /** The capacity bound: a leaf above the depth ceiling holds at most
      `capacity` elements; leaves at `maxDepth` are unbounded. */
  ghost predicate Bounded<E>(c: Cell<E>, capacity: int, maxDepth: int)
    decreases c
  {
    match c
    case Leaf(_, _, depth, es) => depth < maxDepth ==> |es| <= capacity
    case Node(_, _, _, cs) => forall i :: 0 <= i < |cs| ==> Bounded(cs[i], capacity, maxDepth)
  }

  /** getCell: descend from `c` by the routing rule until a leaf is reached. */
  function GetCell<E>(c: Cell<E>, p: Point): (l: Cell<E>)
    requires Shaped(c)
    ensures l.Leaf?
    decreases c
  {
    match c
    case Leaf(_, _, _, _) => c
    case Node(center, _, _, cs) => GetCell(cs[Octant(center, p)], p)
  }

  /** `b` is `a` with at most the element list of the leaf that `p` routes
      to changed: every cell keeps its kind and geometry, and every child off
      the routed path is unchanged. */
  ghost predicate EditedAlong<E>(a: Cell<E>, b: Cell<E>, p: Point)
    decreases a
  {
    && b.Leaf? == a.Leaf? && b.center == a.center && b.range == a.range && b.depth == a.depth
    && match a
       case Leaf(_, _, _, _) => true
       case Node(center, _, _, cs) =>
         var i := Octant(center, p);
         && |b.children| == |cs|
         && (forall j :: 0 <= j < |cs| && j != i ==> b.children[j] == cs[j])
         && (i < |cs| ==> EditedAlong(cs[i], b.children[i], p))
  }

  /** `a` and `b` have the same cell structure: at every level the same kind
      and geometry, and nodes with the same number of children; only leaf
      lists may differ. */
  ghost predicate SameShape<E>(a: Cell<E>, b: Cell<E>)
    decreases a
  {
    && b.Leaf? == a.Leaf? && b.center == a.center && b.range == a.range && b.depth == a.depth
    && match a
       case Leaf(_, _, _, _) => true
       case Node(_, _, _, cs) =>
         |b.children| == |cs| && forall j :: 0 <= j < |cs| ==> SameShape(cs[j], b.children[j])
  }

  lemma {:induction false} SameShapeRefl<E>(a: Cell<E>)
    ensures SameShape(a, a)
    decreases a
  {
    if a.Node? {
      forall j | 0 <= j < |a.children|
        ensures SameShape(a.children[j], a.children[j])
      {
        SameShapeRefl(a.children[j]);
      }
    }
  }

  /** The leaf reached by routing holds only elements of the subtree. */
  lemma {:induction false} GetCellElementsStored<E>(c: Cell<E>, p: Point, e: Elem<E>)
    requires Shaped(c) && e in GetCell(c, p).elements
    ensures e in Elements(c)
    decreases c
  {
    if c.Node? {
      var i := Octant(c.center, p);
      GetCellElementsStored(c.children[i], p, e);
      InElementsOfAll(c.children, e);
    }
  }

  /** The main invariant: in a valid tree every element sits in the leaf that
      routing its own coordinates reaches. */
  lemma {:induction false} RoutedFindsElement<E>(c: Cell<E>, maxDepth: int, e: Elem<E>)
    requires Valid(c, maxDepth) && e in Elements(c)
    ensures Shaped(c) && e in GetCell(c, e.Pos()).elements
    decreases c
  {
    ValidIsShaped(c, maxDepth);
    if c.Node? {
      InElementsOfAll(c.children, e);
      var j :| 0 <= j < |c.children| && e in Elements(c.children[j]);
      assert Octant(c.center, e.Pos()) == j;
      RoutedFindsElement(c.children[j], maxDepth, e);
    }
  }

  /** getCornerPos(i): the corner of the cell's box in octant `i`'s direction;
      any other index yields the zero-filled array, i.e. the origin. */
  function CornerPos<E>(c: Cell<E>, i: int): (p: Point)
    ensures 0 <= i < 8 ==> p == Offset(c.center, c.range, i)
    ensures !(0 <= i < 8) ==> p == Point(0, 0, 0)
  {
    var p := c.center;
    var r := c.range;
    match i
    case 0 => Point(p.x + r, p.y + r, p.z + r)
    case 1 => Point(p.x + r, p.y + r, p.z - r)
    case 2 => Point(p.x + r, p.y - r, p.z + r)
    case 3 => Point(p.x + r, p.y - r, p.z - r)
    case 4 => Point(p.x - r, p.y + r, p.z + r)
    case 5 => Point(p.x - r, p.y + r, p.z - r)
    case 6 => Point(p.x - r, p.y - r, p.z + r)
    case 7 => Point(p.x - r, p.y - r, p.z - r)
    case _ => Point(0, 0, 0)
  }

  /** Corner `i` and child centre `i` follow one sign convention, and with a
      positive range corner `i` is routed to octant `i`. */
  lemma CornerMatchesChildOffset<E>(c: Cell<E>, i: int)
    requires 0 <= i < 8
    ensures CornerPos(c, i) == Offset(c.center, c.range, i)
    ensures CornerPos(c, i) == ChildCenter(c.center, c.range, i)
    ensures c.range > 0 ==> Octant(c.center, CornerPos(c, i)) == i
  {
  }

  /** contains(E): search every leaf of the subtree, children in index order. */
  function ContainsValue<E(==)>(c: Cell<E>, v: E): (b: bool)
    ensures b <==> HasValue(Elements(c), v)
    decreases c, 1
  {
    match c
    case Leaf(_, _, _, es) => LeafHolds(es, v)
    case Node(_, _, _, cs) => AnyChildContains(cs, 0, v)
  }

  function AnyChildContains<E(==)>(cs: seq<Cell<E>>, k: nat, v: E): (b: bool)
    requires k <= |cs|
    ensures b <==> HasValue(ElementsOfAll(cs[k..]), v)
    decreases cs, 0, |cs| - k
  {
    assert k < |cs| ==> cs[k..][1..] == cs[k + 1..];
    if k == |cs| then false
    else ContainsValue(cs[k], v) || AnyChildContains(cs, k + 1, v)
  }

  /** The scan of one leaf's list: does any element carry value `v`? */
  function LeafHolds<E(==)>(es: seq<Elem<E>>, v: E): (b: bool)
    ensures b <==> HasValue(es, v)
  {
    if |es| == 0 then false
    else if es[0].value == v then true
    else
      assert forall e :: e in es ==> e == es[0] || e in es[1..];
      LeafHolds(es[1..], v)
  }
}

=== FILE: geometry.dfy ===
/** Integer geometry of the point-region octree: points, the octant routing
    rule shared by insertion, splitting and lookup, and the sign table that
    places child centres and cell corners. */
module Geometry {

  /** A point of the integer cube (the source's three `long` coordinates). */
  datatype Point = Point(x: int, y: int, z: int)

  /** Java's `n / 2` on a `long`: division truncating toward zero, so the
      remainder `n - 2 * h` takes the sign of `n`. Dafny's `/` is Euclidean,
      so the negative case is written out. */
  function Half(n: int): (h: int)
    ensures 0 <= n ==> 0 <= n - 2 * h <= 1
    ensures n < 0 ==> -1 <= n - 2 * h <= 0
    ensures n >= 0 ==> h == n / 2 && 0 <= h <= n
  {
    if n >= 0 then n / 2 else -((-n) / 2)
  }

  /** The routing rule: the index of the child of a cell centred at `c` that
      owns point `p`. A coordinate equal to the centre goes to the `>=` side. */
  function Octant(c: Point, p: Point): (i: nat)
    ensures i < 8
    ensures i < 4 <==> p.x >= c.x
    ensures i % 4 < 2 <==> p.y >= c.y
    ensures i % 2 == 0 <==> p.z >= c.z
  {
    (if p.x >= c.x then 0 else 4) + (if p.y >= c.y then 0 else 2) + (if p.z >= c.z then 0 else 1)
  }

  /** The sign convention of octant `i`, stated independently of any table:
      the x offset is positive for indices 0-3, the y offset for indices whose
      remainder mod 4 is 0 or 1, the z offset for even indices. */
  function Offset(c: Point, d: int, i: nat): Point
  {
    Point(c.x + (if i < 4 then d else -d),
          c.y + (if i % 4 < 2 then d else -d),
          c.z + (if i % 2 == 0 then d else -d))
  }

  /** The centre of child `i` when a cell centred at `c` is split with half
      range `h`, written as the source's per-child table. */
  function ChildCenter(c: Point, h: int, i: nat): (p: Point)
    requires i < 8
    ensures p == Offset(c, h, i)
  {
    match i
    case 0 => Point(c.x + h, c.y + h, c.z + h)
    case 1 => Point(c.x + h, c.y + h, c.z - h)
    case 2 => Point(c.x + h, c.y - h, c.z + h)
    case 3 => Point(c.x + h, c.y - h, c.z - h)
    case 4 => Point(c.x - h, c.y + h, c.z + h)
    case 5 => Point(c.x - h, c.y + h, c.z - h)
    case 6 => Point(c.x - h, c.y - h, c.z + h)
    case _ => Point(c.x - h, c.y - h, c.z - h)
  }

  /** A positive offset in octant `i`'s direction is routed back to octant `i`:
      routing and the child-centre table use the same sign convention. */
  lemma OffsetRoutesBack(c: Point, d: int, i: nat)
    requires 0 < d && i < 8
    ensures Octant(c, Offset(c, d, i)) == i
  {
  }

  /** The closed box `[c - r, c + r]` on each axis. */
  predicate InBox(c: Point, r: int, p: Point)
  {
    c.x - r <= p.x <= c.x + r && c.y - r <= p.y <= c.y + r && c.z - r <= p.z <= c.z + r
  }

  /** With an even range, a point inside a cell's box lies inside the box of
      the child it is routed to. With an odd range halving truncates and the
      children do not cover the parent's outer faces. */
  lemma RoutedPointInChildBox(c: Point, r: int, p: Point)
    requires 0 <= r && r % 2 == 0 && InBox(c, r, p)
    ensures var i := Octant(c, p); InBox(ChildCenter(c, Half(r), i), Half(r), p)
  {
  }

  /** With an odd range the children miss the parent's outer faces. */
  lemma OddRangeLeavesGap()
    ensures InBox(Point(0, 0, 0), 1, Point(1, 1, 1))
    ensures !InBox(ChildCenter(Point(0, 0, 0), Half(1), Octant(Point(0, 0, 0), Point(1, 1, 1))), Half(1), Point(1, 1, 1))
  {
  }
}

=== FILE: insert.dfy ===
/** Insertion: descend to the routed leaf, then split full leaves above the
    depth ceiling (repeatedly, if the new element's octant is full again)
    before appending the element. */
module Insertion {
  import opened Geometry
  import opened Cells
  import opened Split

  /** Elements of a child after one element was added are routed like before. */
  lemma GrownChildRouted<E>(center: Point, i: nat, before: Cell<E>, after: Cell<E>, e: Elem<E>)
    requires multiset(Elements(after)) == multiset(Elements(before)) + multiset{e}
    requires Octant(center, e.Pos()) == i
    requires forall x :: x in Elements(before) ==> Octant(center, x.Pos()) == i
    ensures forall x :: x in Elements(after) ==> Octant(center, x.Pos()) == i
  {
    forall x | x in Elements(after)
      ensures Octant(center, x.Pos()) == i
    {
      assert multiset(Elements(after))[x] > 0;
      assert x == e || multiset(Elements(before))[x] > 0;
    }
  }

  /** Replacing child `i` of a valid node by a valid child with the same
      geometry and one more element routed to `i` gives a valid node with one
      more element. */
  lemma {:induction false} ReplaceGrownChild<E>(n: Cell<E>, maxDepth: int, i: nat, child: Cell<E>, e: Elem<E>)
    requires n.Node? && Valid(n, maxDepth) && i < 8
    requires Octant(n.center, e.Pos()) == i
    requires child.center == n.children[i].center && child.range == n.children[i].range
    requires child.depth == n.children[i].depth && Valid(child, maxDepth)
    requires multiset(Elements(child)) == multiset(Elements(n.children[i])) + multiset{e}
    ensures var r := n.(children := n.children[i := child]);
      Valid(r, maxDepth) && multiset(Elements(r)) == multiset(Elements(n)) + multiset{e}
  {
    var cs := n.children;
    var cs' := cs[i := child];
    var r := n.(children := cs');
    ElementsOfAllUpdate(cs, i, child);
    ElementsOfAllAround(cs, i);
    var pre, post := ElementsOfAll(cs[..i]), ElementsOfAll(cs[i + 1..]);
    assert Elements(r) == pre + Elements(child) + post;
    assert Elements(n) == pre + Elements(cs[i]) + post;
    GrownChildRouted(n.center, i, cs[i], child, e);
    forall j: nat | j < 8
      ensures cs'[j].depth == n.depth + 1
      ensures cs'[j].center == ChildCenter(n.center, Half(n.range), j)
      ensures cs'[j].range == Half(n.range)
      ensures Valid(cs'[j], maxDepth)
      ensures forall x :: x in Elements(cs'[j]) ==> Octant(n.center, x.Pos()) == j
    {
      if j != i {
        assert cs'[j] == cs[j];
      }
    }
    assert |cs'| == 8;
  }

  /** addRecursive applied to a leaf: while the leaf is full (its size equals
      the capacity) and not at the depth ceiling, split it and continue in the
      child the element routes to; otherwise append the element. The cell
      keeps its geometry, gains exactly the one element, and stays valid. */
  function AddRecursive<E>(capacity: int, maxDepth: int, c: Cell<E>, e: Elem<E>): (r: Cell<E>)
    requires c.Leaf? && Valid(c, maxDepth)
    ensures r.center == c.center && r.range == c.range && r.depth == c.depth
    ensures multiset(Elements(r)) == multiset(c.elements) + multiset{e}
    ensures Valid(r, maxDepth)
    decreases maxDepth - c.depth
  {
    if |c.elements| == capacity && c.depth != maxDepth then
      var d := Divide(c);
      DivideValid(c, capacity, maxDepth);
      var i := Octant(c.center, e.Pos());
      var child := AddRecursive(capacity, maxDepth, d.children[i], e);
      ReplaceGrownChild(d, maxDepth, i, child, e);
      d.(children := d.children[i := child])
    else
      c.(elements := c.elements + [e])
  }

  /** One step of addRecursive at a full leaf above the depth ceiling: split,
      then continue in the child the element routes to. */
  lemma AddRecursiveSplits<E>(capacity: int, maxDepth: int, c: Cell<E>, e: Elem<E>)
    requires c.Leaf? && Valid(c, maxDepth) && |c.elements| == capacity && c.depth != maxDepth
    ensures var d := Divide(c); var i := Octant(c.center, e.Pos());
      && d.children[i].Leaf? && Valid(d.children[i], maxDepth)
      && AddRecursive(capacity, maxDepth, c, e) == d.(children := d.children[i := AddRecursive(capacity, maxDepth, d.children[i], e)])
  {
    DivideValid(c, capacity, maxDepth);
  }

  /** One step of addRecursive at any other leaf: append. */
  lemma AddRecursiveAppends<E>(capacity: int, maxDepth: int, c: Cell<E>, e: Elem<E>)
    requires c.Leaf? && Valid(c, maxDepth) && (|c.elements| != capacity || c.depth == maxDepth)
    ensures AddRecursive(capacity, maxDepth, c, e) == c.(elements := c.elements + [e])
  {
  }

  /** add, once the bounds test has passed: getCell's descent followed by
      addRecursive at the leaf reached. (The source's inline split in `add` is
      the first step of addRecursive written out.) */
  function InsertCell<E>(capacity: int, maxDepth: int, c: Cell<E>, e: Elem<E>): (r: Cell<E>)
    requires Valid(c, maxDepth)
    ensures r.center == c.center && r.range == c.range && r.depth == c.depth
    ensures multiset(Elements(r)) == multiset(Elements(c)) + multiset{e}
    ensures Valid(r, maxDepth)
    ensures c.Node? ==> var i := Octant(c.center, e.Pos());
      && r.Node? && |r.children| == |c.children|
      && (forall j :: 0 <= j < |c.children| && j != i ==> r.children[j] == c.children[j])
      && r.children[i] == InsertCell(capacity, maxDepth, c.children[i], e)
    decreases c
  {
    match c
    case Leaf(_, _, _, _) => AddRecursive(capacity, maxDepth, c, e)
    case Node(center, range, depth, cs) =>
      var i := Octant(center, e.Pos());
      var child := InsertCell(capacity, maxDepth, cs[i], e);
      ReplaceGrownChild(c, maxDepth, i, child, e);
      c.(children := cs[i := child])
  }

  /** The capacity bound survives addRecursive: a split leaf was exactly full,
      so each child holds at most `capacity`, and an append happens only to a
      leaf below capacity or at the depth ceiling. */
  lemma {:induction false} AddRecursiveBounded<E>(capacity: int, maxDepth: int, c: Cell<E>, e: Elem<E>)
    requires c.Leaf? && Valid(c, maxDepth) && Bounded(c, capacity, maxDepth)
    ensures Bounded(AddRecursive(capacity, maxDepth, c, e), capacity, maxDepth)
    decreases maxDepth - c.depth
  {
    if |c.elements| == capacity && c.depth != maxDepth {
      var d := Divide(c);
      DivideValid(c, capacity, maxDepth);
      var i := Octant(c.center, e.Pos());
      AddRecursiveBounded(capacity, maxDepth, d.children[i], e);
    }
  }

  lemma {:induction false} InsertCellBounded<E>(capacity: int, maxDepth: int, c: Cell<E>, e: Elem<E>)
    requires Valid(c, maxDepth) && Bounded(c, capacity, maxDepth)
    ensures Bounded(InsertCell(capacity, maxDepth, c, e), capacity, maxDepth)
    decreases c
  {
    match c
    case Leaf(_, _, _, _) =>
      AddRecursiveBounded(capacity, maxDepth, c, e);
    case Node(center, _, _, cs) =>
      InsertCellBounded(capacity, maxDepth, cs[Octant(center, e.Pos())], e);
  }

  /** The last element of a list is `e`. */
  ghost predicate EndsWith<T>(es: seq<T>, e: T)
  {
    |es| > 0 && es[|es| - 1] == e
  }

  /** Routing through a node whose routed child was replaced reaches the
      new child's leaf. */
  lemma RouteThroughChild<E>(n: Cell<E>, i: nat, child: Cell<E>, p: Point)
    requires n.Node? && Shaped(n) && Shaped(child) && Octant(n.center, p) == i
    ensures var m := n.(children := n.children[i := child]);
      Shaped(m) && GetCell(m, p) == GetCell(child, p)
  {
    var m := n.(children := n.children[i := child]);
    assert forall j :: 0 <= j < 8 ==> m.children[j] == child || m.children[j] == n.children[j];
  }

  /** Whatever splits happen on the way, the new element ends up as the last
      element of the leaf its coordinates route to. */
  lemma {:induction false} AddRecursiveEndsLeaf<E>(capacity: int, maxDepth: int, c: Cell<E>, e: Elem<E>)
    requires c.Leaf? && Valid(c, maxDepth)
    ensures var r := AddRecursive(capacity, maxDepth, c, e);
      Shaped(r) && EndsWith(GetCell(r, e.Pos()).elements, e)
    decreases maxDepth - c.depth
  {
    if |c.elements| == capacity && c.depth != maxDepth {
      var d := Divide(c);
      DivideValid(c, capacity, maxDepth);
      ValidIsShaped(d, maxDepth);
      AddRecursiveSplits(capacity, maxDepth, c, e);
      var i := Octant(c.center, e.Pos());
      var child := AddRecursive(capacity, maxDepth, d.children[i], e);
      AddRecursiveEndsLeaf(capacity, maxDepth, d.children[i], e);
      RouteThroughChild(d, i, child, e.Pos());
    } else {
      AddRecursiveAppends(capacity, maxDepth, c, e);
    }
  }

  lemma {:induction false} InsertEndsLeaf<E>(capacity: int, maxDepth: int, c: Cell<E>, e: Elem<E>)
    requires Valid(c, maxDepth)
    ensures var r := InsertCell(capacity, maxDepth, c, e);
      Shaped(r) && EndsWith(GetCell(r, e.Pos()).elements, e)
    decreases c
  {
    match c
    case Leaf(_, _, _, _) => AddRecursiveEndsLeaf(capacity, maxDepth, c, e);
    case Node(center, _, _, cs) =>
      var i := Octant(center, e.Pos());
      InsertEndsLeaf(capacity, maxDepth, cs[i], e);
      ValidIsShaped(c, maxDepth);
      RouteThroughChild(c, i, InsertCell(capacity, maxDepth, cs[i], e), e.Pos());
  }

  /** When the routed leaf is below capacity, or at the depth ceiling, the
      element is appended to it: the leaf keeps its order and gains `e` last. */
  lemma {:induction false} InsertAppendsLast<E>(capacity: int, maxDepth: int, c: Cell<E>, e: Elem<E>)
    requires Valid(c, maxDepth)
    requires Shaped(c) && var l := GetCell(c, e.Pos()); |l.elements| != capacity || l.depth == maxDepth
    ensures var r := InsertCell(capacity, maxDepth, c, e);
      Shaped(r) && GetCell(r, e.Pos()).elements == GetCell(c, e.Pos()).elements + [e]
    decreases c
  {
    match c
    case Leaf(_, _, _, _) =>
      AddRecursiveAppends(capacity, maxDepth, c, e);
    case Node(center, _, _, cs) =>
      var i := Octant(center, e.Pos());
      ValidIsShaped(cs[i], maxDepth);
      InsertAppendsLast(capacity, maxDepth, cs[i], e);
      var child := InsertCell(capacity, maxDepth, cs[i], e);
      ValidIsShaped(child, maxDepth);
      RouteThroughChild(c, i, child, e.Pos());
  }

  /** After an insertion the new element is found by routing its own
      coordinates. */
  lemma InsertedIsRouted<E>(capacity: int, maxDepth: int, c: Cell<E>, e: Elem<E>)
    requires Valid(c, maxDepth)
    ensures var r := InsertCell(capacity, maxDepth, c, e);
      Shaped(r) && e in GetCell(r, e.Pos()).elements
  {
    var r := InsertCell(capacity, maxDepth, c, e);
    assert multiset(Elements(r))[e] > 0;
    RoutedFindsElement(r, maxDepth, e);
  }
}

=== FILE: octree.dfy ===
/** The octree as its users see it: the capacity, the depth ceiling, the
    inclusive coordinate bounds shared by all three axes, and the root cell;
    with the public operations insert, the two membership tests, the two
    removals and the criterion queries. */
module Octree {
  import opened Geometry
  import opened Cells
  import Insertion
  import Removal
  import Query
  import Cascade
  import Split

  datatype Octree<E> = Octree(capacity: int, maxDepth: int, min: int, max: int, root: Cell<E>)

  /** The add-time bounds test: every coordinate within `[min, max]`. */
  predicate InBounds(min: int, max: int, p: Point)
  {
    min <= p.x <= max && min <= p.y <= max && min <= p.z <= max
  }

  /** The tree invariant: a valid root at depth 1 whose elements all passed
      the bounds test. */
  ghost predicate TreeValid<E>(t: Octree<E>)
  {
    && Valid(t.root, t.maxDepth)
    && t.root.depth == 1
    && forall e :: e in Elements(t.root) ==> InBounds(t.min, t.max, e.Pos())
  }

  /** The capacity bound over the whole tree. */
  ghost predicate TreeBounded<E>(t: Octree<E>)
  {
    Bounded(t.root, t.capacity, t.maxDepth)
  }

  /** The number of stored elements. */
  function Size<E>(t: Octree<E>): nat
  {
    |Elements(t.root)|
  }

  /** OctreePRCube(cellCapacity, maxDepth, range): the cube `[-range, range]`
      with an empty root leaf at the origin whose half-width is `range`. */
  function NewCube<E>(capacity: int, maxDepth: int, range: int): (t: Octree<E>)
    requires 0 <= capacity
    ensures t.capacity == capacity && t.maxDepth == maxDepth
    ensures t.min == -range && t.max == range
    ensures Size(t) == 0
    ensures 1 <= maxDepth ==> TreeValid(t)
    ensures TreeBounded(t)
    ensures forall p :: InBounds(t.min, t.max, p) ==> InBox(t.root.center, t.root.range, p)
  {
    Octree(capacity, maxDepth, -range, range, Leaf(Point(0, 0, 0), range, 1, []))
  }

  /** OctreePRCube(cellCapacity, maxDepth, min, max) as written: the root is
      centred at `(max - min) / 2` on each axis with half-width `max - min`. */
  function NewBounded<E>(capacity: int, maxDepth: int, min: int, max: int): (t: Octree<E>)
    requires 0 <= capacity
    ensures t.capacity == capacity && t.maxDepth == maxDepth && t.min == min && t.max == max
    ensures Size(t) == 0
    ensures 1 <= maxDepth ==> TreeValid(t)
    ensures TreeBounded(t)
    ensures t.root.center == Point(Half(max - min), Half(max - min), Half(max - min))
  {
    var c := Half(max - min);
    Octree(capacity, maxDepth, min, max, Leaf(Point(c, c, c), max - min, 1, []))
  }

  /** The as-written root box misses part of the universe: with bounds
      [10, 20] the root spans [-5, 15], so the accepted point (20, 20, 20)
      lies outside the root cell a geometric criterion inspects. */
  lemma BoundedRootMissesUniverse()
    ensures var t := NewBounded<int>(1, 1, 10, 20);
      InBounds(t.min, t.max, Point(20, 20, 20)) && !InBox(t.root.center, t.root.range, Point(20, 20, 20))
  {
  }

  /** The bounded constructor with the root centred at the midpoint
      `(min + max) / 2`; its root box covers every point the bounds test
      accepts. */
  function NewBoundedCentered<E>(capacity: int, maxDepth: int, min: int, max: int): (t: Octree<E>)
    requires 0 <= capacity
    ensures t.capacity == capacity && t.maxDepth == maxDepth && t.min == min && t.max == max
    ensures Size(t) == 0
    ensures 1 <= maxDepth ==> TreeValid(t)
    ensures TreeBounded(t)
    ensures forall p :: InBounds(t.min, t.max, p) ==> InBox(t.root.center, t.root.range, p)
  {
    var c := Half(min + max);
    Octree(capacity, maxDepth, min, max, Leaf(Point(c, c, c), max - min, 1, []))
  }

  /** add(value, x, y, z): reject a point outside the bounds without change;
      otherwise insert it, growing the tree by exactly that element, after
      which the coordinate-directed membership test finds it. */
  function Add<E(==)>(t: Octree<E>, v: E, x: int, y: int, z: int): (r: (Octree<E>, bool))
    requires TreeValid(t)
    ensures r.1 <==> InBounds(t.min, t.max, Point(x, y, z))
    ensures !r.1 ==> r.0 == t
    ensures r.1 ==> multiset(Elements(r.0.root)) == multiset(Elements(t.root)) + multiset{Elem(v, x, y, z)}
    ensures Size(r.0) == if r.1 then Size(t) + 1 else Size(t)
    ensures r.0.capacity == t.capacity && r.0.maxDepth == t.maxDepth && r.0.min == t.min && r.0.max == t.max
    ensures TreeValid(r.0)
    ensures r.1 ==> Shaped(r.0.root) && ContainsAt(r.0, v, x, y, z)
    ensures r.1 ==> r.0.root == Insertion.InsertCell(t.capacity, t.maxDepth, t.root, Elem(v, x, y, z))
  {
    var p := Point(x, y, z);
    if !InBounds(t.min, t.max, p) then (t, false)
    else
      var e := Elem(v, x, y, z);
      var t' := t.(root := Insertion.InsertCell(t.capacity, t.maxDepth, t.root, e));
      AddKeepsInvariant(t, e);
      assert |multiset(Elements(t'.root))| == |multiset(Elements(t.root))| + 1;
      (t', true)
  }

  lemma AddKeepsInvariant<E>(t: Octree<E>, e: Elem<E>)
    requires TreeValid(t) && InBounds(t.min, t.max, e.Pos())
    ensures var t' := t.(root := Insertion.InsertCell(t.capacity, t.maxDepth, t.root, e));
      TreeValid(t') && Shaped(t'.root) && e in GetCell(t'.root, e.Pos()).elements
  {
    var t' := t.(root := Insertion.InsertCell(t.capacity, t.maxDepth, t.root, e));
    forall x | x in Elements(t'.root)
      ensures InBounds(t.min, t.max, x.Pos())
    {
      assert multiset(Elements(t'.root))[x] > 0;
      assert x == e || multiset(Elements(t.root))[x] > 0;
    }
    Insertion.InsertedIsRouted(t.capacity, t.maxDepth, t.root, e);
  }

  /** add puts the new element last in the leaf its coordinates reach; when
      that leaf was below capacity or at the depth ceiling, the leaf is the
      old one with the element appended. */
  lemma AddAppendsLast<E>(t: Octree<E>, v: E, x: int, y: int, z: int)
    requires TreeValid(t) && InBounds(t.min, t.max, Point(x, y, z))
    ensures var r := Add(t, v, x, y, z).0; var p := Point(x, y, z);
      && Shaped(r.root) && Insertion.EndsWith(GetCell(r.root, p).elements, Elem(v, x, y, z))
      && (Shaped(t.root) && var l := GetCell(t.root, p); |l.elements| != t.capacity || l.depth == t.maxDepth ==>
            GetCell(r.root, p).elements == GetCell(t.root, p).elements + [Elem(v, x, y, z)])
  {
    var e := Elem(v, x, y, z);
    assert e.Pos() == Point(x, y, z);
    Insertion.InsertEndsLeaf(t.capacity, t.maxDepth, t.root, e);
    ValidIsShaped(t.root, t.maxDepth);
    var l := GetCell(t.root, e.Pos());
    if |l.elements| != t.capacity || l.depth == t.maxDepth {
      Insertion.InsertAppendsLast(t.capacity, t.maxDepth, t.root, e);
    }
  }

  /** Insertion keeps the capacity bound: only leaves at the depth ceiling
      ever exceed the capacity. */
  lemma AddKeepsBound<E>(t: Octree<E>, v: E, x: int, y: int, z: int)
    requires TreeValid(t) && TreeBounded(t)
    ensures TreeBounded(Add(t, v, x, y, z).0)
  {
    if InBounds(t.min, t.max, Point(x, y, z)) {
      Insertion.InsertCellBounded(t.capacity, t.maxDepth, t.root, Elem(v, x, y, z));
    }
  }

  /** contains(value): some stored element carries `v`. */
  function ContainsValue<E(==)>(t: Octree<E>, v: E): (b: bool)
    ensures b <==> exists e :: e in Elements(t.root) && e.value == v
  {
    Cells.ContainsValue(t.root, v)
  }

  /** contains(value, x, y, z): scan the leaf that (x, y, z) routes to,
      comparing values only. */
  function ContainsAt<E(==)>(t: Octree<E>, v: E, x: int, y: int, z: int): (b: bool)
    requires Shaped(t.root)
    ensures b <==> HasValue(GetCell(t.root, Point(x, y, z)).elements, v)
    ensures b ==> ContainsValue(t, v)
  {
    RoutedValueIsStored(t.root, Point(x, y, z), v);
    LeafHolds(GetCell(t.root, Point(x, y, z)).elements, v)
  }

  lemma RoutedValueIsStored<E>(c: Cell<E>, p: Point, v: E)
    requires Shaped(c)
    ensures HasValue(GetCell(c, p).elements, v) ==> HasValue(Elements(c), v)
  {
    if HasValue(GetCell(c, p).elements, v) {
      var e :| e in GetCell(c, p).elements && e.value == v;
      GetCellElementsStored(c, p, e);
    }
  }

  /** The coordinate-directed test finds every stored element at its own
      coordinates. */
  lemma ContainsAtFindsStored<E>(t: Octree<E>, v: E, x: int, y: int, z: int)
    requires TreeValid(t) && Elem(v, x, y, z) in Elements(t.root)
    ensures Shaped(t.root) && ContainsAt(t, v, x, y, z)
  {
    RoutedFindsElement(t.root, t.maxDepth, Elem(v, x, y, z));
  }

  /** contains(value, x, y, z) compares values only: an element stored at
      (0, 0, 0) answers for (5, 5, 5), which routes to the same leaf. */
  lemma ContainsAtIgnoresCoordinates()
    ensures var t := Octree(4, 2, -8, 8, Leaf(Point(0, 0, 0), 8, 1, [Elem(7, 0, 0, 0)]));
      Shaped(t.root) && ContainsAt(t, 7, 5, 5, 5) && Elem(7, 5, 5, 5) !in Elements(t.root)
  {
    var t := Octree(4, 2, -8, 8, Leaf(Point(0, 0, 0), 8, 1, [Elem(7, 0, 0, 0)]));
    assert LeafHolds(t.root.elements, 7);
  }

  /** remove(value): delete the first element with value `v` in depth-first,
      child 0..7 order; no merge is attempted, so the cell structure keeps
      its shape. */
  function RemoveValue<E(==)>(t: Octree<E>, v: E): (r: (Octree<E>, bool))
    requires TreeValid(t)
    ensures r.1 <==> ContainsValue(t, v)
    ensures Elements(r.0.root) == Removal.RemoveFirst(Elements(t.root), v).0
    ensures !r.1 ==> r.0 == t
    ensures r.0.root == Removal.RemoveValue(t.root, v).0
    ensures Size(r.0) == if r.1 then Size(t) - 1 else Size(t)
    ensures r.0.capacity == t.capacity && r.0.maxDepth == t.maxDepth && r.0.min == t.min && r.0.max == t.max
    ensures TreeValid(r.0)
  {
    var (root', found) := Removal.RemoveValue(t.root, v);
    Removal.RemoveValueValid(t.root, v, t.capacity, t.maxDepth);
    Removal.RemovedIsStored(Elements(t.root), v);
    (t.(root := root'), found)
  }

  /** remove(value) never merges: every cell of the tree keeps its kind and
      geometry, and every node its children count. */
  lemma RemoveValueNeverMerges<E>(t: Octree<E>, v: E)
    requires TreeValid(t)
    ensures SameShape(t.root, RemoveValue(t, v).0.root)
  {
    Removal.RemoveValueKeepsShape(t.root, v);
  }

  /** remove(value, x, y, z) as written: a root leaf is edited directly;
      otherwise the routed leaf loses its first element with value `v`, and
      on success the merge rule is tried on the root only. */
  function RemoveAt<E(==)>(t: Octree<E>, v: E, x: int, y: int, z: int): (r: (Octree<E>, bool))
    requires TreeValid(t)
    ensures Shaped(t.root)
    ensures r.1 <==> ContainsAt(t, v, x, y, z)
    ensures !r.1 ==> r.0 == t
    ensures r.1 ==> var gone := Removal.FirstWith(GetCell(t.root, Point(x, y, z)).elements, v);
      gone.value == v && multiset(Elements(r.0.root)) + multiset{gone} == multiset(Elements(t.root))
    ensures r.1 && t.root.Node? ==>
      (r.0.root.Leaf? <==> (forall i :: 0 <= i < 8 ==> t.root.children[i].Leaf?) && Size(r.0) == t.capacity)
    ensures r.1 ==> Elements(r.0.root) == Elements(Removal.RemoveAtLeaf(t.root, Point(x, y, z), v).0)
    ensures r.0.capacity == t.capacity && r.0.maxDepth == t.maxDepth && r.0.min == t.min && r.0.max == t.max
    ensures TreeValid(r.0)
  {
    ValidIsShaped(t.root, t.maxDepth);
    var p := Point(x, y, z);
    match t.root
    case Leaf(_, _, _, es) =>
      var (es', found) := Removal.RemoveFirst(es, v);
      RemoveAtKeepsInvariant(t, v, p);
      (t.(root := t.root.(elements := es')), found)
    case Node(_, _, _, _) =>
      var (root', found) := Removal.RemoveAtLeaf(t.root, p, v);
      if found then
        RemoveAtKeepsInvariant(t, v, p);
        RootMergeRule(t, v, p);
        (t.(root := Removal.MergeIfNeeded(t.capacity, root')), true)
      else (t, false)
  }

  /** After the routed-leaf edit the root's children keep their kinds, so
      the root merges exactly when all its original children were leaves and
      the remaining elements number `capacity`. */
  lemma RootMergeRule<E>(t: Octree<E>, v: E, p: Point)
    requires TreeValid(t) && t.root.Node?
    ensures Shaped(t.root)
    ensures var root' := Removal.RemoveAtLeaf(t.root, p, v).0; var m := Removal.MergeIfNeeded(t.capacity, root');
      && Elements(m) == Elements(root')
      && (m.Leaf? <==> (forall i :: 0 <= i < 8 ==> t.root.children[i].Leaf?) && |Elements(m)| == t.capacity)
  {
    ValidIsShaped(t.root, t.maxDepth);
    var root' := Removal.RemoveAtLeaf(t.root, p, v).0;
    var i := Octant(t.root.center, p);
    assert EditedAlong(t.root.children[i], root'.children[i], p);
    assert forall j :: 0 <= j < 8 ==> (root'.children[j].Leaf? <==> t.root.children[j].Leaf?);
  }

  /** The as-written removal merges nowhere below the root: a root that
      stays a node is exactly the routed-leaf edit, so every cell off the
      routed path, and every node on it, is as it was. */
  lemma RemoveAtMergesOnlyRoot<E>(t: Octree<E>, v: E, x: int, y: int, z: int)
    requires TreeValid(t)
    ensures Shaped(t.root)
    ensures var r := RemoveAt(t, v, x, y, z);
      r.1 && r.0.root.Node? ==>
        r.0.root == Removal.RemoveAtLeaf(t.root, Point(x, y, z), v).0 && EditedAlong(t.root, r.0.root, Point(x, y, z))
  {
    ValidIsShaped(t.root, t.maxDepth);
  }

  lemma RemoveAtKeepsInvariant<E>(t: Octree<E>, v: E, p: Point)
    requires TreeValid(t)
    ensures Shaped(t.root)
    ensures var t' := t.(root := Removal.RemoveAtLeaf(t.root, p, v).0);
      TreeValid(t') && (TreeBounded(t) ==> TreeBounded(t'))
    ensures t.root.Node? ==>
      var t' := t.(root := Removal.MergeIfNeeded(t.capacity, Removal.RemoveAtLeaf(t.root, p, v).0));
      TreeValid(t') && (TreeBounded(t) ==> TreeBounded(t'))
  {
    ValidIsShaped(t.root, t.maxDepth);
    var r := Removal.RemoveAtLeaf(t.root, p, v);
    Removal.RemoveAtLeafValid(t.root, p, v, t.capacity, t.maxDepth);
    if r.1 {
      forall x | x in Elements(r.0)
        ensures x in Elements(t.root)
      {
        assert multiset(Elements(r.0))[x] > 0;
        assert multiset(Elements(t.root))[x] > 0;
      }
    }
    if t.root.Node? && Bounded(r.0, t.capacity, t.maxDepth) {
      Removal.MergeValid(t.capacity, t.maxDepth, r.0);
    }
  }

  /** Both removals keep the capacity bound. */
  lemma RemovalsKeepBound<E>(t: Octree<E>, v: E, x: int, y: int, z: int)
    requires TreeValid(t) && TreeBounded(t)
    ensures TreeBounded(RemoveValue(t, v).0)
    ensures TreeBounded(RemoveAt(t, v, x, y, z).0)
  {
    Removal.RemoveValueValid(t.root, v, t.capacity, t.maxDepth);
    RemoveAtKeepsInvariant(t, v, Point(x, y, z));
  }

  /** remove(value, x, y, z) with the merge rule tried on every cell of the
      routing path. It succeeds exactly when the as-written removal does,
      removes the same element, keeps the invariant, and leaves no mergeable
      cell on the path. */
  function RemoveAtCascading<E(==)>(t: Octree<E>, v: E, x: int, y: int, z: int): (r: (Octree<E>, bool))
    requires TreeValid(t)
    ensures Shaped(t.root)
    ensures r.1 <==> ContainsAt(t, v, x, y, z)
    ensures !r.1 ==> r.0 == t
    ensures r.1 ==> var gone := Removal.FirstWith(GetCell(t.root, Point(x, y, z)).elements, v);
      gone.value == v && multiset(Elements(r.0.root)) + multiset{gone} == multiset(Elements(t.root))
    ensures r.1 ==> Shaped(r.0.root) && Cascade.PathSettled(t.capacity, r.0.root, Point(x, y, z))
    ensures r.1 ==> Elements(r.0.root) == Elements(Removal.RemoveAtLeaf(t.root, Point(x, y, z), v).0)
    ensures r.0.capacity == t.capacity && r.0.maxDepth == t.maxDepth && r.0.min == t.min && r.0.max == t.max
    ensures TreeValid(r.0)
  {
    ValidIsShaped(t.root, t.maxDepth);
    var p := Point(x, y, z);
    var (root', found) := Cascade.RemoveCascading(t.capacity, t.root, p, v);
    Cascade.CascadeSameElements(t.capacity, t.root, p, v);
    Cascade.CascadeValid(t.capacity, t.maxDepth, t.root, p, v);
    RemoveAtKeepsInvariant(t, v, p);
    (t.(root := root'), found)
  }

  /** The cascading removal keeps the capacity bound. */
  lemma CascadingKeepsBound<E>(t: Octree<E>, v: E, x: int, y: int, z: int)
    requires TreeValid(t) && TreeBounded(t)
    ensures TreeBounded(RemoveAtCascading(t, v, x, y, z).0)
  {
    Cascade.CascadeValid(t.capacity, t.maxDepth, t.root, Point(x, y, z), v);
  }

  /** The tree holding value 1 and then value 2 at (6, 6, 6), with capacity 1
      and depth ceiling 3: the root and its child 0 are split, and both values
      sit in the depth-3 leaf centred at (6, 6, 6). */
  function TwoAtSixExample(): Octree<int>
  {
    var outer := seq(8, i requires 0 <= i < 8 =>
      if i == 0 then InnerExample() else Leaf(ChildCenter(Point(0, 0, 0), 4, i), 4, 2, []));
    Octree(1, 3, -8, 8, Node(Point(0, 0, 0), 8, 1, outer))
  }

  /** Child 0 of that tree. */
  function InnerExample(): Cell<int>
  {
    var inner := seq(8, j requires 0 <= j < 8 =>
      Leaf(ChildCenter(Point(4, 4, 4), 2, j), 2, 3, if j == 0 then [Elem(1, 6, 6, 6), Elem(2, 6, 6, 6)] else []));
    Node(Point(4, 4, 4), 4, 2, inner)
  }

  lemma FirstAddExample()
    ensures Add(NewCube<int>(1, 3, 8), 1, 6, 6, 6).0 == Octree(1, 3, -8, 8, Leaf(Point(0, 0, 0), 8, 1, [Elem(1, 6, 6, 6)]))
  {
  }

  lemma SecondAddExample()
    ensures var t1 := Octree(1, 3, -8, 8, Leaf(Point(0, 0, 0), 8, 1, [Elem(1, 6, 6, 6)]));
      TreeValid(t1) && Add(t1, 2, 6, 6, 6).0 == TwoAtSixExample()
  {
    FirstAddExample();
    OuterInsertExample(Leaf(Point(0, 0, 0), 8, 1, [Elem(1, 6, 6, 6)]), Elem(2, 6, 6, 6));
  }

  lemma OuterInsertExample(l1: Cell<int>, e2: Elem<int>)
    requires l1 == Leaf(Point(0, 0, 0), 8, 1, [Elem(1, 6, 6, 6)]) && e2 == Elem(2, 6, 6, 6)
    ensures Valid(l1, 3) && Insertion.InsertCell(1, 3, l1, e2) == TwoAtSixExample().root
  {
    assert Valid(l1, 3);
    assert Octant(l1.center, e2.Pos()) == 0 && Octant(l1.center, Elem(1, 6, 6, 6).Pos()) == 0;
    assert Half(8) == 4 && ChildCenter(Point(0, 0, 0), 4, 0) == Point(4, 4, 4);
    InnerInsertExample(Leaf(Point(4, 4, 4), 4, 2, [Elem(1, 6, 6, 6)]), e2);
    SplitSingletonAbove(l1, 3, Elem(1, 6, 6, 6), e2, 0, InnerExample());
  }

  /** A one-element leaf two or more levels above the depth ceiling, with
      capacity 1, takes a second element of the same octant by one split and
      the insertion continuing in that child; the other seven are empty. */
  lemma SplitSingletonAbove<E>(c: Cell<E>, maxDepth: int, e1: Elem<E>, e2: Elem<E>, i: nat, inner: Cell<E>)
    requires c.Leaf? && c.elements == [e1] && Valid(c, maxDepth) && c.depth + 1 < maxDepth
    requires Octant(c.center, e1.Pos()) == i && Octant(c.center, e2.Pos()) == i
    requires Insertion.AddRecursive(1, maxDepth, Leaf(ChildCenter(c.center, Half(c.range), i), Half(c.range), c.depth + 1, [e1]), e2) == inner
    ensures Insertion.AddRecursive(1, maxDepth, c, e2) == Node(c.center, c.range, c.depth, seq(8, k requires 0 <= k < 8 =>
      if k == i then inner else Leaf(ChildCenter(c.center, Half(c.range), k), Half(c.range), c.depth + 1, [])))
  {
    Insertion.AddRecursiveSplits(1, maxDepth, c, e2);
    DivideSingleton(c, e1);
  }

  lemma InnerInsertExample(c: Cell<int>, e2: Elem<int>)
    requires c == Leaf(Point(4, 4, 4), 4, 2, [Elem(1, 6, 6, 6)]) && e2 == Elem(2, 6, 6, 6)
    ensures Valid(c, 3) && Insertion.AddRecursive(1, 3, c, e2) == InnerExample()
  {
    assert Valid(c, 3);
    assert Octant(c.center, e2.Pos()) == 0 && Octant(c.center, Elem(1, 6, 6, 6).Pos()) == 0;
    SplitSingletonAtCeiling(c, 3, Elem(1, 6, 6, 6), e2, 0);
    assert Half(4) == 2 && ChildCenter(Point(4, 4, 4), 2, 0) == Point(6, 6, 6);
  }

  /** A one-element leaf just above the depth ceiling, with capacity 1, takes
      a second element of the same octant by one split: that child holds both,
      the other seven are empty. */
  lemma SplitSingletonAtCeiling<E>(c: Cell<E>, maxDepth: int, e1: Elem<E>, e2: Elem<E>, i: nat)
    requires c.Leaf? && c.elements == [e1] && Valid(c, maxDepth) && c.depth + 1 == maxDepth
    requires Octant(c.center, e1.Pos()) == i && Octant(c.center, e2.Pos()) == i
    ensures Insertion.AddRecursive(1, maxDepth, c, e2) == Node(c.center, c.range, c.depth, seq(8, k requires 0 <= k < 8 =>
      Leaf(ChildCenter(c.center, Half(c.range), k), Half(c.range), maxDepth, if k == i then [e1, e2] else [])))
  {
    var d := Split.Divide(c);
    Insertion.AddRecursiveSplits(1, maxDepth, c, e2);
    DivideSingleton(c, e1);
    AppendSecond(d.children[i], maxDepth, e1, e2);
    SecondInOctant(c.center, Half(c.range), maxDepth, d.children, e1, e2, i);
  }

  /** A one-element leaf at the depth ceiling takes a second element by
      appending it. */
  lemma AppendSecond<E>(l: Cell<E>, maxDepth: int, e1: Elem<E>, e2: Elem<E>)
    requires l.Leaf? && l.elements == [e1] && Valid(l, maxDepth) && l.depth == maxDepth
    ensures Insertion.AddRecursive(1, maxDepth, l, e2) == l.(elements := [e1, e2])
  {
    Insertion.AddRecursiveAppends(1, maxDepth, l, e2);
    assert [e1] + [e2] == [e1, e2];
  }

  /** Eight leaves that are empty except leaf `i`, holding `e1`: appending
      `e2` to leaf `i` gives the pair in that leaf. */
  lemma SecondInOctant<E>(center: Point, h: int, depth: int, cs: seq<Cell<E>>, e1: Elem<E>, e2: Elem<E>, i: nat)
    requires |cs| == 8 && i < 8
    requires forall k :: 0 <= k < 8 ==> cs[k] == Leaf(ChildCenter(center, h, k), h, depth, if k == i then [e1] else [])
    ensures cs[i := cs[i].(elements := [e1, e2])] == seq(8, k requires 0 <= k < 8 =>
      Leaf(ChildCenter(center, h, k), h, depth, if k == i then [e1, e2] else []))
  {
    var cs' := cs[i := cs[i].(elements := [e1, e2])];
    var s := seq(8, k requires 0 <= k < 8 => Leaf(ChildCenter(center, h, k), h, depth, if k == i then [e1, e2] else []));
    forall k | 0 <= k < 8
      ensures cs'[k] == s[k]
    {
    }
  }

  /** Splitting a one-element leaf sends the element to its octant's child
      and leaves the other seven empty. */
  lemma DivideSingleton<E>(l: Cell<E>, e: Elem<E>)
    requires l.Leaf? && l.elements == [e]
    ensures forall k: nat :: k < 8 ==>
      Split.Divide(l).children[k] == Leaf(ChildCenter(l.center, Half(l.range), k), Half(l.range), l.depth + 1, if k == Octant(l.center, e.Pos()) then [e] else [])
  {
    forall k: nat | k < 8
      ensures Split.Filter(l.center, [e], k) == if k == Octant(l.center, e.Pos()) then [e] else []
    {
      assert [e][1..] == [];
    }
  }

  /** The as-written removal tries the merge rule on the root only. With
      capacity 1 and depth ceiling 3, two values inserted at (6, 6, 6) split
      the root and its child 0; removing value 1 there leaves child 0 a node
      whose leaves hold one element in total, which the merge rule would
      collapse. The cascading removal merges that child and then the root,
      leaving a single leaf. */
  lemma MergeOnlyAtRoot()
    ensures var t := Add(Add(NewCube<int>(1, 3, 8), 1, 6, 6, 6).0, 2, 6, 6, 6).0;
      var r := RemoveAt(t, 1, 6, 6, 6);
      var c := RemoveAtCascading(t, 1, 6, 6, 6);
      && TreeBounded(t) && r.1 && r.0.root.Node? && Cascade.Mergeable(1, r.0.root.children[0])
      && c.1 && c.0.root == Leaf(Point(0, 0, 0), 8, 1, [Elem(2, 6, 6, 6)])
  {
    FirstAddExample();
    SecondAddExample();
    var t0 := NewCube<int>(1, 3, 8);
    AddKeepsBound(t0, 1, 6, 6, 6);
    AddKeepsBound(Add(t0, 1, 6, 6, 6).0, 2, 6, 6, 6);
    RemoveAtOnExample(TwoAtSixExample());
    CascadeOnExample(TwoAtSixExample());
  }

  lemma RemoveAtOnExample(t: Octree<int>)
    requires t == TwoAtSixExample() && TreeValid(t)
    ensures var r := RemoveAt(t, 1, 6, 6, 6);
      r.1 && r.0.root.Node? && Cascade.Mergeable(1, r.0.root.children[0])
  {
    ExampleRootShape(t.root);
    InnerExampleShape(InnerExample());
    RemoveAtPairBelowRoot(t, Point(6, 6, 6), Elem(1, 6, 6, 6), Elem(2, 6, 6, 6));
  }

  /** The example's root: child 0, the one (6, 6, 6) routes to, is the inner node. */
  lemma ExampleRootShape(root: Cell<int>)
    requires root == TwoAtSixExample().root
    ensures root.Node? && Shaped(root) && root.center == Point(0, 0, 0)
    ensures Octant(root.center, Point(6, 6, 6)) == 0 && root.children[0] == InnerExample()
    ensures forall k :: 0 <= k < |root.children| && k != 0 ==> root.children[k].Leaf? && root.children[k].elements == []
  {
  }

  /** The example's inner node: the leaf (6, 6, 6) routes to holds values 1
      and 2, and the other seven leaves are empty. */
  lemma InnerExampleShape(n: Cell<int>)
    requires n == InnerExample()
    ensures PairNode(n, Point(6, 6, 6), Elem(1, 6, 6, 6), Elem(2, 6, 6, 6))
  {
  }

  /** A node whose child routed from `p` holds exactly `e1, e2` and whose
      other children are empty leaves. */
  ghost predicate PairNode<E>(n: Cell<E>, p: Point, e1: Elem<E>, e2: Elem<E>)
  {
    && n.Node? && Shaped(n)
    && n.children[Octant(n.center, p)].Leaf? && n.children[Octant(n.center, p)].elements == [e1, e2]
    && forall k :: 0 <= k < 8 && k != Octant(n.center, p) ==> n.children[k].Leaf? && n.children[k].elements == []
  }

  /** The as-written removal of `e1`'s value at `p`, when the root's routed
      child is such a node: the edited child is mergeable but the root does
      not merge, so the child stays a node. */
  lemma RemoveAtPairBelowRoot<E>(t: Octree<E>, p: Point, e1: Elem<E>, e2: Elem<E>)
    requires TreeValid(t) && t.root.Node? && Shaped(t.root)
    requires PairNode(t.root.children[Octant(t.root.center, p)], p, e1, e2)
    ensures var r := RemoveAt(t, e1.value, p.x, p.y, p.z);
      r.1 && r.0.root.Node? && Cascade.Mergeable(1, r.0.root.children[Octant(t.root.center, p)])
  {
    var i := Octant(t.root.center, p);
    var n0' := PairLeafRemoval(t.root.children[i], p, e1, e2);
    var root' := t.root.(children := t.root.children[i := n0']);
    Removal.RemoveAtLeafStep(t.root, p, e1.value);
    RemoveAtNodeStep(t, e1.value, p, root');
  }

  /** The as-written removal at an internal root whose edited root keeps a
      node child: the merge rule leaves the edited root as it is. */
  lemma RemoveAtNodeStep<E>(t: Octree<E>, v: E, p: Point, root': Cell<E>)
    requires TreeValid(t) && t.root.Node? && Shaped(t.root)
    requires Removal.RemoveAtLeaf(t.root, p, v) == (root', true)
    requires exists k :: 0 <= k < |root'.children| && root'.children[k].Node?
    ensures RemoveAt(t, v, p.x, p.y, p.z) == (t.(root := root'), true)
  {
  }

  /** A node whose routed child holds two elements and whose other children
      are empty leaves. Removing the first element's value there leaves a
      mergeable node; the cascading removal merges it into one leaf. */
  lemma PairLeafRemoval<E>(n: Cell<E>, p: Point, e1: Elem<E>, e2: Elem<E>) returns (n': Cell<E>)
    requires PairNode(n, p, e1, e2)
    ensures n'.Node? && Shaped(n')
    ensures Removal.RemoveAtLeaf(n, p, e1.value) == (n', true)
    ensures Cascade.Mergeable(1, n')
    ensures Cascade.RemoveCascading(1, n, p, e1.value) == (Leaf(n.center, n.range, n.depth, [e2]), true)
  {
    var i := Octant(n.center, p);
    var l := n.children[i];
    PairLeafFirst(l, p, e1, e2);
    n' := n.(children := n.children[i := l.(elements := [e2])]);
    Removal.RemoveAtLeafStep(n, p, e1.value);
    MergeOneLeft(n, i, l.(elements := [e2]));
    Cascade.CascadeStep(1, n, p, e1.value);
  }

  /** Removing the first element's value from a leaf holding two elements
      leaves the second, for both removals. */
  lemma PairLeafFirst<E>(l: Cell<E>, p: Point, e1: Elem<E>, e2: Elem<E>)
    requires l.Leaf? && l.elements == [e1, e2]
    ensures Removal.RemoveAtLeaf(l, p, e1.value) == (l.(elements := [e2]), true)
    ensures Cascade.RemoveCascading(1, l, p, e1.value) == (l.(elements := [e2]), true)
  {
    assert Removal.RemoveFirst([e1, e2], e1.value) == ([e2], true);
  }

  /** On the same tree the cascading removal merges child 0 and then the
      root, which ends as one leaf holding the remaining value. */
  lemma CascadeOnExample(t: Octree<int>)
    requires t == TwoAtSixExample() && TreeValid(t)
    ensures var r := RemoveAtCascading(t, 1, 6, 6, 6);
      r.1 && r.0.root == Leaf(Point(0, 0, 0), 8, 1, [Elem(2, 6, 6, 6)])
  {
    ExampleRootShape(t.root);
    InnerExampleShape(InnerExample());
    CascadePairBelowRoot(t, Point(6, 6, 6), Elem(1, 6, 6, 6), Elem(2, 6, 6, 6));
  }

  /** The cascading removal of `e1`'s value at `p`, with capacity 1, when the
      root's routed child is a pair node and its other children are empty
      leaves: the child merges, then the root merges into a leaf holding `e2`. */
  lemma CascadePairBelowRoot<E>(t: Octree<E>, p: Point, e1: Elem<E>, e2: Elem<E>)
    requires TreeValid(t) && t.capacity == 1 && t.root.Node? && Shaped(t.root)
    requires PairNode(t.root.children[Octant(t.root.center, p)], p, e1, e2)
    requires forall k :: 0 <= k < |t.root.children| && k != Octant(t.root.center, p) ==>
      t.root.children[k].Leaf? && t.root.children[k].elements == []
    ensures RemoveAtCascading(t, e1.value, p.x, p.y, p.z).1
    ensures RemoveAtCascading(t, e1.value, p.x, p.y, p.z).0.root == Leaf(t.root.center, t.root.range, t.root.depth, [e2])
  {
    var i := Octant(t.root.center, p);
    var n0 := t.root.children[i];
    var _ := PairLeafRemoval(n0, p, e1, e2);
    var leaf := Leaf(n0.center, n0.range, n0.depth, [e2]);
    MergeOneLeft(t.root, i, leaf);
    Cascade.CascadeStep(1, t.root, p, e1.value);
    RemoveAtCascadingStep(t, e1.value, p);
  }

  /** A node whose children are empty leaves except child `i`, a leaf with
      one element, merges under capacity 1 into a leaf with that element. */
  lemma MergeOneLeft<E>(c: Cell<E>, i: nat, leaf: Cell<E>)
    requires c.Node? && |c.children| == 8 && i < 8 && leaf.Leaf? && |leaf.elements| == 1
    requires forall k :: 0 <= k < |c.children| && k != i ==> c.children[k].Leaf? && c.children[k].elements == []
    ensures Removal.MergeIfNeeded(1, c.(children := c.children[i := leaf])) == Leaf(c.center, c.range, c.depth, leaf.elements)
  {
    var n := c.(children := c.children[i := leaf]);
    ElementsOfAllAround(n.children, i);
    NoElements(n.children[..i]);
    NoElements(n.children[i + 1..]);
    assert Elements(n) == leaf.elements;
    assert forall k :: 0 <= k < |n.children| ==> n.children[k].Leaf?;
    var m := Removal.MergeIfNeeded(1, n);
    assert m.Leaf? && Elements(m) == m.elements;
  }

  /** The public cascading removal is the cell-level one applied to the root. */
  lemma RemoveAtCascadingStep<E>(t: Octree<E>, v: E, p: Point)
    requires TreeValid(t)
    ensures Shaped(t.root)
    ensures RemoveAtCascading(t, v, p.x, p.y, p.z) == (t.(root := Cascade.RemoveCascading(t.capacity, t.root, p, v).0), Cascade.RemoveCascading(t.capacity, t.root, p, v).1)
  {
    ValidIsShaped(t.root, t.maxDepth);
  }

  lemma {:induction false} NoElements<E>(cs: seq<Cell<E>>)
    requires forall i :: 0 <= i < |cs| ==> cs[i].Leaf? && cs[i].elements == []
    ensures ElementsOfAll(cs) == []
  {
    if |cs| > 0 {
      NoElements(cs[1..]);
    }
  }

  /** Round trip: a successful insertion followed by the coordinate-directed
      removal of the same value at the same point succeeds, and removes an
      element with that value; when the value was not stored before, the
      removed element is the one inserted and the tree holds what it held
      before. */
  lemma AddThenRemoveAt<E>(t: Octree<E>, v: E, x: int, y: int, z: int)
    requires TreeValid(t) && InBounds(t.min, t.max, Point(x, y, z))
    ensures var t1 := Add(t, v, x, y, z).0;
      var (t2, removed) := RemoveAt(t1, v, x, y, z);
      removed && Size(t2) == Size(t)
      && (!ContainsValue(t, v) ==> multiset(Elements(t2.root)) == multiset(Elements(t.root)) && !ContainsValue(t2, v))
  {
    var e := Elem(v, x, y, z);
    var (t1, added) := Add(t, v, x, y, z);
    assert added && ContainsAt(t1, v, x, y, z);
    var m0, m1 := multiset(Elements(t.root)), multiset(Elements(t1.root));
    assert m1 == m0 + multiset{e};
    var (t2, removed) := RemoveAt(t1, v, x, y, z);
    assert removed;
    var gone := Removal.FirstWith(GetCell(t1.root, Point(x, y, z)).elements, v);
    var m2 := multiset(Elements(t2.root));
    assert m2 + multiset{gone} == m1 && gone.value == v;
    SwapOne(m2, m1, m0, gone, e);
    if !ContainsValue(t, v) {
      assert gone !in m0;
      PutBack(m2, m0, gone, e);
      forall x | x in Elements(t2.root)
        ensures x.value != v
      {
        assert m0[x] > 0;
      }
    }
  }

  /** One element out after one element in leaves the count unchanged. */
  lemma SwapOne<T>(m2: multiset<T>, m1: multiset<T>, m0: multiset<T>, gone: T, e: T)
    requires m2 + multiset{gone} == m1 && m1 == m0 + multiset{e}
    ensures |m2| == |m0|
  {
    assert |m2| + 1 == |m1| == |m0| + 1;
  }

  /** Taking out what was put in, when it was not there before. */
  lemma PutBack<T>(m2: multiset<T>, m0: multiset<T>, gone: T, e: T)
    requires m2 + multiset{gone} == m0 + multiset{e} && gone !in m0
    ensures gone == e && m2 == m0
  {
    assert (m0 + multiset{e})[gone] > 0;
    forall x
      ensures m2[x] == m0[x]
    {
      assert (m2 + multiset{gone})[x] == (m0 + multiset{e})[x];
    }
    assert m2 == m0;
  }

  /** getElements(criterion) on the whole tree. */
  function GetElements<E>(t: Octree<E>, crit: (Point, int) -> Query.Covering): (r: seq<E>)
    ensures crit(t.root.center, t.root.range) == Query.Outside ==> r == []
    ensures crit(t.root.center, t.root.range) == Query.Inside ==> r == Values(Elements(t.root))
    ensures multiset(r) <= multiset(Values(Elements(t.root)))
  {
    Query.GetElements(crit, t.root)
  }

  /** On a valid tree the criterion query returns the values of exactly the
      stored elements whose routing path meets an INSIDE cell or a PARTIAL
      leaf before any OUTSIDE cell, in depth-first order. */
  lemma GetElementsReached<E>(t: Octree<E>, crit: (Point, int) -> Query.Covering)
    requires TreeValid(t)
    ensures GetElements(t, crit) == Values(Query.Reaching(crit, t.root, Elements(t.root)))
  {
    Query.GetElementsReached(crit, t.root, t.maxDepth);
  }

  /** getElementsNew(criterion) on the whole tree: the same sequence. */
  function GetElementsNew<E>(t: Octree<E>, crit: (Point, int) -> Query.Covering): (r: seq<E>)
    ensures r == GetElements(t, crit)
  {
    Query.GetElementsNew(crit, t.root)
  }

  /** A criterion that classifies everything as INSIDE returns every stored
      value exactly once. */
  lemma AllInsideReturnsEverything<E>(t: Octree<E>)
    ensures GetElements(t, (p: Point, r: int) => Query.Inside) == Values(Elements(t.root))
    ensures |GetElements(t, (p: Point, r: int) => Query.Inside)| == Size(t)
  {
  }
}

=== FILE: query.dfy ===
/** Criterion-driven retrieval: a caller-supplied classifier of cell
    geometry prunes OUTSIDE subtrees, takes INSIDE subtrees whole, and
    recurses through PARTIAL nodes; a PARTIAL leaf contributes all its values.
    Two traversals are modelled: the direct one, and the one that first
    collects the selected leaves and their element count. */
module Query {
  import opened Geometry
  import opened Cells

  /** How a cell's box relates to the query region. */
  datatype Covering = Partial | Inside | Outside

  /** getElements(cell): every value of the subtree, children in index order. */
  function AllValues<E>(c: Cell<E>): (vs: seq<E>)
    ensures vs == Values(Elements(c))
    decreases c, 1
  {
    match c
    case Leaf(_, _, _, es) => Values(es)
    case Node(_, _, _, cs) => AllValuesOfChildren(cs)
  }

  function AllValuesOfChildren<E>(cs: seq<Cell<E>>): (vs: seq<E>)
    ensures vs == Values(ElementsOfAll(cs))
    decreases cs, 0
  {
    if |cs| == 0 then []
    else
      ValuesAppend(Elements(cs[0]), ElementsOfAll(cs[1..]));
      AllValues(cs[0]) + AllValuesOfChildren(cs[1..])
  }

  /** getElements(criterion, cell). The criterion sees a cell's centre and
      range, the only geometry a cell exposes. The result is a sub-multiset of
      the subtree's values: nothing is invented and nothing is repeated. */
  function GetElements<E>(crit: (Point, int) -> Covering, c: Cell<E>): (r: seq<E>)
    ensures crit(c.center, c.range) == Outside ==> r == []
    ensures crit(c.center, c.range) == Inside ==> r == Values(Elements(c))
    ensures c.Leaf? && crit(c.center, c.range) == Partial ==> r == Values(c.elements)
    ensures multiset(r) <= multiset(Values(Elements(c)))
    decreases c, 1
  {
    match crit(c.center, c.range)
    case Outside => []
    case Inside => AllValues(c)
    case Partial =>
      match c
      case Leaf(_, _, _, es) => Values(es)
      case Node(_, _, _, cs) => GetElementsOfChildren(crit, cs)
  }

  function GetElementsOfChildren<E>(crit: (Point, int) -> Covering, cs: seq<Cell<E>>): (r: seq<E>)
    ensures multiset(r) <= multiset(Values(ElementsOfAll(cs)))
    decreases cs, 0
  {
    if |cs| == 0 then []
    else
      ValuesAppend(Elements(cs[0]), ElementsOfAll(cs[1..]));
      GetElements(crit, cs[0]) + GetElementsOfChildren(crit, cs[1..])
  }

  /** A criterion that never answers OUTSIDE returns every stored value
      exactly once, in depth-first, child-ascending order. */
  lemma {:induction false} NeverOutsideReturnsAll<E>(crit: (Point, int) -> Covering, c: Cell<E>)
    requires forall p, r :: crit(p, r) != Outside
    ensures GetElements(crit, c) == Values(Elements(c))
    decreases c, 1
  {
    if c.Node? && crit(c.center, c.range) == Partial {
      NeverOutsideChildren(crit, c.children);
    }
  }

  lemma {:induction false} NeverOutsideChildren<E>(crit: (Point, int) -> Covering, cs: seq<Cell<E>>)
    requires forall p, r :: crit(p, r) != Outside
    ensures GetElementsOfChildren(crit, cs) == Values(ElementsOfAll(cs))
    decreases cs, 0
  {
    if |cs| > 0 {
      NeverOutsideReturnsAll(crit, cs[0]);
      NeverOutsideChildren(crit, cs[1..]);
      ValuesAppend(Elements(cs[0]), ElementsOfAll(cs[1..]));
    }
  }

  /** The reference for the criterion query: walking the routing path of `p`
      down from `c`, an INSIDE cell, or a PARTIAL leaf, is met before any
      OUTSIDE cell. */
  predicate Reached<E>(crit: (Point, int) -> Covering, c: Cell<E>, p: Point)
    decreases c
  {
    match crit(c.center, c.range)
    case Outside => false
    case Inside => true
    case Partial =>
      match c
      case Leaf(_, _, _, _) => true
      case Node(center, _, _, cs) =>
        var i := Octant(center, p);
        i < |cs| && Reached(crit, cs[i], p)
  }

  /** The elements of `es` whose positions are reached from `c`, in order. */
  function Reaching<E>(crit: (Point, int) -> Covering, c: Cell<E>, es: seq<Elem<E>>): seq<Elem<E>>
  {
    if |es| == 0 then []
    else (if Reached(crit, c, es[0].Pos()) then [es[0]] else []) + Reaching(crit, c, es[1..])
  }

  /** The selection keeps exactly the reached elements, each as often as it
      occurs. */
  lemma {:induction false} ReachingCount<E>(crit: (Point, int) -> Covering, c: Cell<E>, es: seq<Elem<E>>, e: Elem<E>)
    ensures multiset(Reaching(crit, c, es))[e] == if Reached(crit, c, e.Pos()) then multiset(es)[e] else 0
    decreases |es|
  {
    if |es| > 0 {
      ReachingCount(crit, c, es[1..], e);
      var head := if Reached(crit, c, es[0].Pos()) then [es[0]] else [];
      assert multiset(Reaching(crit, c, es)) == multiset(head) + multiset(Reaching(crit, c, es[1..]));
      assert es == [es[0]] + es[1..];
      assert multiset(es) == multiset{es[0]} + multiset(es[1..]);
    }
  }

  lemma {:induction false} ReachingAppend<E>(crit: (Point, int) -> Covering, c: Cell<E>, a: seq<Elem<E>>, b: seq<Elem<E>>)
    ensures Reaching(crit, c, a + b) == Reaching(crit, c, a) + Reaching(crit, c, b)
    decreases |a|
  {
    if |a| > 0 {
      var ab := a + b;
      assert ab[0] == a[0] && ab[1..] == a[1..] + b;
      ReachingAppend(crit, c, a[1..], b);
      var head := if Reached(crit, c, a[0].Pos()) then [a[0]] else [];
      assert Reaching(crit, c, ab) == head + (Reaching(crit, c, a[1..]) + Reaching(crit, c, b));
      assert Reaching(crit, c, a) == head + Reaching(crit, c, a[1..]);
    } else {
      assert a + b == b;
    }
  }

  /** Two cells that agree on every position of `es` select the same elements. */
  lemma {:induction false} ReachingAgree<E>(crit: (Point, int) -> Covering, c: Cell<E>, d: Cell<E>, es: seq<Elem<E>>)
    requires forall e :: e in es ==> (Reached(crit, c, e.Pos()) <==> Reached(crit, d, e.Pos()))
    ensures Reaching(crit, c, es) == Reaching(crit, d, es)
    decreases |es|
  {
    if |es| > 0 {
      assert es[0] in es;
      assert forall e :: e in es[1..] ==> e in es;
      ReachingAgree(crit, c, d, es[1..]);
    }
  }

  /** The criterion query returns, in depth-first order, the values of
      exactly the elements whose routing path meets an INSIDE cell or a
      PARTIAL leaf before any OUTSIDE cell. */
  lemma {:induction false} GetElementsReached<E>(crit: (Point, int) -> Covering, c: Cell<E>, maxDepth: int)
    requires Valid(c, maxDepth)
    ensures GetElements(crit, c) == Values(Reaching(crit, c, Elements(c)))
    decreases c, 1
  {
    match crit(c.center, c.range)
    case Outside => ReachingNone(crit, c, Elements(c));
    case Inside => ReachingAll(crit, c, Elements(c));
    case Partial =>
      if c.Leaf? {
        ReachingAll(crit, c, Elements(c));
      } else {
        GetElementsReachedChildren(crit, c, maxDepth, 0);
        assert c.children[0..] == c.children;
      }
  }

  /** Through a PARTIAL node, children `k` to 7 contribute their own selections. */
  lemma {:induction false} GetElementsReachedChildren<E>(crit: (Point, int) -> Covering, c: Cell<E>, maxDepth: int, k: nat)
    requires Valid(c, maxDepth) && c.Node? && crit(c.center, c.range) == Partial && k <= 8
    ensures GetElementsOfChildren(crit, c.children[k..]) == Values(Reaching(crit, c, ElementsOfAll(c.children[k..])))
    decreases c, 0, 8 - k
  {
    var cs := c.children;
    if k < 8 {
      var child := cs[k];
      assert cs[k..][0] == child && cs[k..][1..] == cs[k + 1..];
      GetElementsReached(crit, child, maxDepth);
      GetElementsReachedChildren(crit, c, maxDepth, k + 1);
      ChildReaching(crit, c, maxDepth, k);
      ReachingAppend(crit, c, Elements(child), ElementsOfAll(cs[k + 1..]));
      ValuesAppend(Reaching(crit, c, Elements(child)), Reaching(crit, c, ElementsOfAll(cs[k + 1..])));
    }
  }

  /** Below a PARTIAL node, child `k`'s elements are reached from the node
      exactly when they are reached from the child. */
  lemma ChildReaching<E>(crit: (Point, int) -> Covering, c: Cell<E>, maxDepth: int, k: nat)
    requires Valid(c, maxDepth) && c.Node? && crit(c.center, c.range) == Partial && k < 8
    ensures Reaching(crit, c, Elements(c.children[k])) == Reaching(crit, c.children[k], Elements(c.children[k]))
  {
    ReachingAgree(crit, c, c.children[k], Elements(c.children[k]));
  }

  lemma {:induction false} ReachingNone<E>(crit: (Point, int) -> Covering, c: Cell<E>, es: seq<Elem<E>>)
    requires crit(c.center, c.range) == Outside
    ensures Reaching(crit, c, es) == []
    decreases |es|
  {
    if |es| > 0 {
      ReachingNone(crit, c, es[1..]);
    }
  }

  lemma {:induction false} ReachingAll<E>(crit: (Point, int) -> Covering, c: Cell<E>, es: seq<Elem<E>>)
    requires crit(c.center, c.range) == Inside || (c.Leaf? && crit(c.center, c.range) == Partial)
    ensures Reaching(crit, c, es) == es
    decreases |es|
  {
    if |es| > 0 {
      ReachingAll(crit, c, es[1..]);
      assert es == [es[0]] + es[1..];
    }
  }

  /** All cells of a list are leaves. */
  predicate AllLeaves<E>(cells: seq<Cell<E>>)
  {
    forall i :: 0 <= i < |cells| ==> cells[i].Leaf?
  }

  /** getElementsNew(cell, cells): every leaf of the subtree in depth-first
      order, and the number of elements they hold. */
  function CollectAll<E>(c: Cell<E>): (r: (int, seq<Cell<E>>))
    ensures AllLeaves(r.1)
    ensures ElementsOfAll(r.1) == Elements(c)
    ensures r.0 == |Elements(c)|
    decreases c, 1
  {
    match c
    case Leaf(_, _, _, es) =>
      assert ElementsOfAll([c]) == es;
      (|es|, [c])
    case Node(_, _, _, cs) => CollectAllOfChildren(cs)
  }

  function CollectAllOfChildren<E>(cs: seq<Cell<E>>): (r: (int, seq<Cell<E>>))
    ensures AllLeaves(r.1)
    ensures ElementsOfAll(r.1) == ElementsOfAll(cs)
    ensures r.0 == |ElementsOfAll(cs)|
    decreases cs, 0
  {
    if |cs| == 0 then (0, [])
    else
      var (n0, l0) := CollectAll(cs[0]);
      var (n1, l1) := CollectAllOfChildren(cs[1..]);
      ElementsOfAllAppend(l0, l1);
      (n0 + n1, l0 + l1)
  }

  /** getElementsNew(criterion, cell, cells): the leaves whose elements the
      query takes, and how many elements they hold. */
  function CollectLeaves<E>(crit: (Point, int) -> Covering, c: Cell<E>): (r: (int, seq<Cell<E>>))
    ensures AllLeaves(r.1)
    ensures r.0 == |ElementsOfAll(r.1)|
    ensures Values(ElementsOfAll(r.1)) == GetElements(crit, c)
    decreases c, 1
  {
    match crit(c.center, c.range)
    case Outside => (0, [])
    case Inside => CollectAll(c)
    case Partial =>
      match c
      case Leaf(_, _, _, es) =>
        assert ElementsOfAll([c]) == es;
        (|es|, [c])
      case Node(_, _, _, cs) => CollectLeavesOfChildren(crit, cs)
  }

  function CollectLeavesOfChildren<E>(crit: (Point, int) -> Covering, cs: seq<Cell<E>>): (r: (int, seq<Cell<E>>))
    ensures AllLeaves(r.1)
    ensures r.0 == |ElementsOfAll(r.1)|
    ensures Values(ElementsOfAll(r.1)) == GetElementsOfChildren(crit, cs)
    decreases cs, 0
  {
    if |cs| == 0 then (0, [])
    else
      var (n0, l0) := CollectLeaves(crit, cs[0]);
      var (n1, l1) := CollectLeavesOfChildren(crit, cs[1..]);
      ElementsOfAllAppend(l0, l1);
      ValuesAppend(ElementsOfAll(l0), ElementsOfAll(l1));
      (n0 + n1, l0 + l1)
  }

  /** getElementsNew(criterion): collect the selected leaves, then read out
      their values. It returns the same sequence as GetElements, and the
      helper's count is that sequence's length. */
  function GetElementsNew<E>(crit: (Point, int) -> Covering, c: Cell<E>): (r: seq<E>)
    ensures r == GetElements(crit, c)
    ensures |r| == CollectLeaves(crit, c).0
  {
    var (_, cells) := CollectLeaves(crit, c);
    Values(ElementsOfAll(cells))
  }
}

=== FILE: quicksort.dfy ===
/** In-place quicksort of an integer array: partition around the first entry
    of the range (Lomuto scheme), move the pivot to its final slot, and sort
    the two sides recursively. Only `Swap` writes to the array. */
module QuickSort {

  /** `s` is in non-decreasing order. */
  predicate Sorted(s: seq<int>)
  {
    forall j, k :: 0 <= j <= k < |s| ==> s[j] <= s[k]
  }

  /** Values moved around a range without loss keep any strict upper bound. */
  lemma BoundBelow(s: seq<int>, t: seq<int>, lo: int, hi: int, b: int)
    requires 0 <= lo <= hi <= |s| == |t|
    requires multiset(s[lo..hi]) == multiset(t[lo..hi])
    requires forall k :: lo <= k < hi ==> t[k] < b
    ensures forall k :: lo <= k < hi ==> s[k] < b
  {
    forall k | lo <= k < hi
      ensures s[k] < b
    {
      assert s[k] == s[lo..hi][k - lo];
      assert s[k] in multiset(t[lo..hi]);
      var i :| 0 <= i < hi - lo && t[lo..hi][i] == s[k];
      assert t[lo + i] == s[k];
    }
  }

  /** Values moved around a range without loss keep any lower bound. */
  lemma BoundAbove(s: seq<int>, t: seq<int>, lo: int, hi: int, b: int)
    requires 0 <= lo <= hi <= |s| == |t|
    requires multiset(s[lo..hi]) == multiset(t[lo..hi])
    requires forall k :: lo <= k < hi ==> b <= t[k]
    ensures forall k :: lo <= k < hi ==> b <= s[k]
  {
    forall k | lo <= k < hi
      ensures b <= s[k]
    {
      assert s[k] == s[lo..hi][k - lo];
      assert s[k] in multiset(t[lo..hi]);
      var i :| 0 <= i < hi - lo && t[lo..hi][i] == s[k];
      assert t[lo + i] == s[k];
    }
  }

  /** Two arrays that agree outside `[lo, hi)` have the same contents exactly
      when their `[lo, hi)` ranges have the same contents. */
  lemma RangePerm(s: seq<int>, t: seq<int>, lo: int, hi: int)
    requires 0 <= lo <= hi <= |s| == |t|
    requires s[..lo] == t[..lo] && s[hi..] == t[hi..]
    ensures multiset(s) == multiset(t) <==> multiset(s[lo..hi]) == multiset(t[lo..hi])
  {
    assert s == s[..lo] + s[lo..hi] + s[hi..];
    assert t == t[..lo] + t[lo..hi] + t[hi..];
    if multiset(s) == multiset(t) {
      var m, n := multiset(s[lo..hi]), multiset(t[lo..hi]);
      forall x
        ensures m[x] == n[x]
      {
        assert multiset(s)[x] == multiset(t)[x];
      }
      assert m == n;
    }
  }

  /** A permutation of a prefix of a range, the rest untouched, permutes the
      range. */
  lemma PermLeft(s: seq<int>, t: seq<int>, lo: int, mid: int, hi: int)
    requires 0 <= lo <= mid <= hi <= |s| == |t|
    requires multiset(s[lo..mid]) == multiset(t[lo..mid]) && s[mid..hi] == t[mid..hi]
    ensures multiset(s[lo..hi]) == multiset(t[lo..hi])
  {
    assert s[lo..hi] == s[lo..mid] + s[mid..hi];
    assert t[lo..hi] == t[lo..mid] + t[mid..hi];
  }

  /** A permutation of a suffix of a range, the rest untouched, permutes the
      range. */
  lemma PermRight(s: seq<int>, t: seq<int>, lo: int, mid: int, hi: int)
    requires 0 <= lo <= mid <= hi <= |s| == |t|
    requires s[lo..mid] == t[lo..mid] && multiset(s[mid..hi]) == multiset(t[mid..hi])
    ensures multiset(s[lo..hi]) == multiset(t[lo..hi])
  {
    assert s[lo..hi] == s[lo..mid] + s[mid..hi];
    assert t[lo..hi] == t[lo..mid] + t[mid..hi];
  }

  /** swap(array, i, j): exchange two entries and touch nothing else. */
  method Swap(a: array<int>, i: int, j: int)
    requires 0 <= i < a.Length && 0 <= j < a.Length
    modifies a
    ensures a[i] == old(a[j]) && a[j] == old(a[i])
    ensures forall k :: 0 <= k < a.Length && k != i && k != j ==> a[k] == old(a[k])
    ensures multiset(a[..]) == multiset(old(a[..]))
  {
    var tmp := a[i];
    a[i] := a[j];
    a[j] := tmp;
    assert a[..] == old(a[..])[i := old(a[j])][j := old(a[i])];
  }

  /** The partition loop of sort and the final swap: the first entry of
      `[left, right]` is the pivot; each smaller entry met is swapped into the
      growing block after it; then the pivot is swapped to the end of that
      block. It ends at index `p` with smaller entries before it and entries
      at least as large after it. */
  method Partition(a: array<int>, left: int, right: int) returns (p: int)
    requires 0 <= left < right < a.Length
    modifies a
    ensures left <= p <= right
    ensures a[p] == old(a[left])
    ensures forall k :: left <= k < p ==> a[k] < a[p]
    ensures forall k :: p < k <= right ==> a[p] <= a[k]
    ensures a[..left] == old(a[..left]) && a[right + 1..] == old(a[right + 1..])
    ensures multiset(a[left..right + 1]) == multiset(old(a[left..right + 1]))
  {
    var pivot := a[left];
    p := left;
    var i := left;
    while i <= right
      invariant left <= i <= right + 1
      invariant left <= p && (p < i || p == left)
      invariant a[left] == pivot
      invariant forall k :: left < k <= p ==> a[k] < pivot
      invariant forall k :: p < k < i ==> pivot <= a[k]
      invariant forall k :: 0 <= k < a.Length && (k < left || right < k) ==> a[k] == old(a[k])
      invariant multiset(a[..]) == multiset(old(a[..]))
    {
      if a[i] < pivot {
        p := p + 1;
        Swap(a, p, i);
      }
      i := i + 1;
    }
    Swap(a, left, p);
    assert a[..left] == old(a[..left]);
    assert a[right + 1..] == old(a[right + 1..]);
    RangePerm(a[..], old(a[..]), left, right + 1);
  }

  /** sort(array, left, right): the entries of `[left, right]` end in
      non-decreasing order and are a permutation of what was there; nothing
      outside the range changes, and a range of at most one entry is left as
      it is. */
  method Sort(a: array<int>, left: int, right: int)
    requires 0 <= left <= right + 1 <= a.Length
    modifies a
    ensures Sorted(a[left..right + 1])
    ensures multiset(a[left..right + 1]) == multiset(old(a[left..right + 1]))
    ensures a[..left] == old(a[..left]) && a[right + 1..] == old(a[right + 1..])
    ensures right <= left ==> a[..] == old(a[..])
    decreases right - left
  {
    if left < right {
      ghost var a0 := a[..];
      var p := Partition(a, left, right);
      ghost var a1 := a[..];
      assert multiset(a1[left..right + 1]) == multiset(a0[left..right + 1]);
      assert a1[..left] == a0[..left] && a1[right + 1..] == a0[right + 1..];
      Sort(a, left, p - 1);
      ghost var a2 := a[..];
      assert a2[left..p] == a[left..p];
      Sort(a, p + 1, right);
      ghost var a3 := a[..];
      assert a3[p + 1..right + 1] == a[p + 1..right + 1];
      SortedJoin(a1, a2, a3, left, p, right);
      assert a3[left..right + 1] == a[left..right + 1];
    }
  }

  /** The two recursive sorts around the pivot slot `p` give a sorted,
      permuted range. */
  lemma SortedJoin(a1: seq<int>, a2: seq<int>, a3: seq<int>, left: int, p: int, right: int)
    requires 0 <= left <= p <= right < |a1| == |a2| == |a3|
    requires forall k :: left <= k < p ==> a1[k] < a1[p]
    requires forall k :: p < k <= right ==> a1[p] <= a1[k]
    requires Sorted(a2[left..p]) && multiset(a2[left..p]) == multiset(a1[left..p])
    requires a2[..left] == a1[..left] && a2[p..] == a1[p..]
    requires Sorted(a3[p + 1..right + 1]) && multiset(a3[p + 1..right + 1]) == multiset(a2[p + 1..right + 1])
    requires a3[..p + 1] == a2[..p + 1] && a3[right + 1..] == a2[right + 1..]
    ensures Sorted(a3[left..right + 1])
    ensures multiset(a3[left..right + 1]) == multiset(a1[left..right + 1])
    ensures a3[..left] == a1[..left] && a3[right + 1..] == a1[right + 1..]
  {
    JoinBounds(a1, a2, a3, left, p, right);
    JoinSorted(a3, left, p, right);
    JoinPerm(a1, a2, a3, left, p, right);
  }

  /** After both recursive sorts the left block is still below the pivot and
      the right block still at least the pivot. */
  lemma JoinBounds(a1: seq<int>, a2: seq<int>, a3: seq<int>, left: int, p: int, right: int)
    requires 0 <= left <= p <= right < |a1| == |a2| == |a3|
    requires forall k :: left <= k < p ==> a1[k] < a1[p]
    requires forall k :: p < k <= right ==> a1[p] <= a1[k]
    requires multiset(a2[left..p]) == multiset(a1[left..p])
    requires a2[p..] == a1[p..]
    requires multiset(a3[p + 1..right + 1]) == multiset(a2[p + 1..right + 1])
    requires a3[..p + 1] == a2[..p + 1]
    ensures a3[left..p] == a2[left..p] && a3[p] == a1[p]
    ensures forall k :: left <= k < p ==> a3[k] < a3[p]
    ensures forall k :: p < k <= right ==> a3[p] <= a3[k]
  {
    var pivot := a1[p];
    forall k | p <= k < |a1|
      ensures a2[k] == a1[k]
    {
      assert a2[p..][k - p] == a1[p..][k - p];
    }
    forall k | 0 <= k <= p
      ensures a3[k] == a2[k]
    {
      assert a3[..p + 1][k] == a2[..p + 1][k];
    }
    BoundBelow(a2, a1, left, p, pivot);
    BoundAbove(a3, a2, p + 1, right + 1, pivot);
  }

  /** The range is permuted and nothing outside it changes. */
  lemma JoinPerm(a1: seq<int>, a2: seq<int>, a3: seq<int>, left: int, p: int, right: int)
    requires 0 <= left <= p <= right < |a1| == |a2| == |a3|
    requires multiset(a2[left..p]) == multiset(a1[left..p])
    requires a2[..left] == a1[..left] && a2[p..] == a1[p..]
    requires multiset(a3[p + 1..right + 1]) == multiset(a2[p + 1..right + 1])
    requires a3[..p + 1] == a2[..p + 1] && a3[right + 1..] == a2[right + 1..]
    ensures multiset(a3[left..right + 1]) == multiset(a1[left..right + 1])
    ensures a3[..left] == a1[..left] && a3[right + 1..] == a1[right + 1..]
  {
    assert a2[p..right + 1] == a1[p..right + 1];
    PermLeft(a2, a1, left, p, right + 1);
    assert a3[left..p + 1] == a2[left..p + 1];
    PermRight(a3, a2, left, p + 1, right + 1);
    assert a3[..left] == a1[..left];
    assert a3[right + 1..] == a1[right + 1..];
  }

  /** A sorted block of values below the pivot, the pivot, and a sorted block
      of values at least the pivot form a sorted range. */
  lemma JoinSorted(s: seq<int>, left: int, p: int, right: int)
    requires 0 <= left <= p <= right < |s|
    requires Sorted(s[left..p]) && Sorted(s[p + 1..right + 1])
    requires forall k :: left <= k < p ==> s[k] < s[p]
    requires forall k :: p < k <= right ==> s[p] <= s[k]
    ensures Sorted(s[left..right + 1])
  {
    forall j, k | left <= j <= k <= right
      ensures s[j] <= s[k]
    {
      if k < p {
        assert s[left..p][j - left] <= s[left..p][k - left];
      } else if p < j {
        assert s[p + 1..right + 1][j - p - 1] <= s[p + 1..right + 1][k - p - 1];
      } else {
      }
    }
  }

  /** quickSort(array): the whole array ends sorted and a permutation of
      what it held; an array of length 0 or 1 is left unchanged. */
  method Quicksort(a: array<int>)
    modifies a
    ensures Sorted(a[..])
    ensures multiset(a[..]) == multiset(old(a[..]))
    ensures a.Length <= 1 ==> a[..] == old(a[..])
  {
    Sort(a, 0, a.Length - 1);
    assert a[0..a.Length] == a[..];
    assert old(a[0..a.Length]) == old(a[..]);
  }
}

=== FILE: removal.dfy ===
/** Removal: deleting the first element with a given value from a leaf, the
    depth-first removal by value alone, the coordinate-directed removal that
    edits only the routed leaf, and the merge rule that collapses a node whose
    eight leaf children hold exactly `capacity` elements. */
module Removal {
  import opened Geometry
  import opened Cells

  /** The position of the first element of `es` carrying value `v`. */
  ghost function FirstIndex<E>(es: seq<Elem<E>>, v: E): (k: nat)
    requires HasValue(es, v)
    ensures k < |es| && es[k].value == v
    ensures forall j :: 0 <= j < k ==> es[j].value != v
  {
    if es[0].value == v then 0
    else
      assert forall x :: x in es ==> x == es[0] || x in es[1..];
      FirstIndex(es[1..], v) + 1
  }

  /** The first element of `es` carrying value `v`. */
  ghost function FirstWith<E>(es: seq<Elem<E>>, v: E): Elem<E>
    requires HasValue(es, v)
  {
    es[FirstIndex(es, v)]
  }

  lemma {:induction false} HasValueAppend<E>(a: seq<Elem<E>>, b: seq<Elem<E>>, v: E)
    ensures HasValue(a + b, v) <==> HasValue(a, v) || HasValue(b, v)
  {
    if HasValue(a + b, v) {
      var e :| e in a + b && e.value == v;
      assert e in a || e in b;
    }
    if HasValue(a, v) {
      var e :| e in a && e.value == v;
      assert e in a + b;
    }
    if HasValue(b, v) {
      var e :| e in b && e.value == v;
      assert e in a + b;
    }
  }

  /** removeElementFromCell: walk the list and delete the first element whose
      value is `v`. Reports whether one was found; otherwise the list is
      unchanged; otherwise exactly that first match is gone. */
  function RemoveFirst<E(==)>(es: seq<Elem<E>>, v: E): (r: (seq<Elem<E>>, bool))
    ensures r.1 <==> HasValue(es, v)
    ensures !r.1 ==> r.0 == es
    ensures r.1 ==> multiset(r.0) + multiset{FirstWith(es, v)} == multiset(es)
    ensures |r.0| == if r.1 then |es| - 1 else |es|
  {
    if |es| == 0 then ([], false)
    else if es[0].value == v then
      assert es == [es[0]] + es[1..];
      (es[1..], true)
    else
      var (rest, found) := RemoveFirst(es[1..], v);
      assert es == [es[0]] + es[1..];
      HasValueAppend([es[0]], es[1..], v);
      ([es[0]] + rest, found)
  }

  /** The deleted element is the first match: everything before it differs
      from `v`, and the list closes up around it. */
  lemma {:induction false} RemoveFirstDeletesFirstMatch<E>(es: seq<Elem<E>>, v: E)
    requires HasValue(es, v)
    ensures var k := FirstIndex(es, v); RemoveFirst(es, v).0 == es[..k] + es[k + 1..]
  {
    if es[0].value == v {
      FirstMatchHead(es, v);
    } else {
      FirstMatchLater(es, v);
      RemoveFirstDeletesFirstMatch(es[1..], v);
      FirstMatchShift(es, v);
    }
  }

  /** A matching head is the first match, and removing it leaves the tail. */
  lemma FirstMatchHead<E>(es: seq<Elem<E>>, v: E)
    requires |es| > 0 && es[0].value == v
    ensures HasValue(es, v) && FirstIndex(es, v) == 0 && RemoveFirst(es, v).0 == es[..0] + es[1..]
  {
    assert es[0] in es;
    assert es[..0] + es[1..] == es[1..];
  }

  /** Cutting the first match out of the tail, behind a non-matching head,
      cuts the first match out of the whole list. */
  lemma FirstMatchShift<E>(es: seq<Elem<E>>, v: E)
    requires HasValue(es, v) && es[0].value != v && HasValue(es[1..], v)
    requires FirstIndex(es, v) == FirstIndex(es[1..], v) + 1
    requires RemoveFirst(es, v).0 == [es[0]] + RemoveFirst(es[1..], v).0
    requires var k := FirstIndex(es[1..], v); RemoveFirst(es[1..], v).0 == es[1..][..k] + es[1..][k + 1..]
    ensures var k := FirstIndex(es, v); RemoveFirst(es, v).0 == es[..k] + es[k + 1..]
  {
    SliceCons(es, FirstIndex(es[1..], v));
  }

  /** When the head does not match, the first match and the removal are
      those of the tail, shifted past the head. */
  lemma FirstMatchLater<E>(es: seq<Elem<E>>, v: E)
    requires HasValue(es, v) && es[0].value != v
    ensures HasValue(es[1..], v)
    ensures FirstIndex(es, v) == FirstIndex(es[1..], v) + 1
    ensures RemoveFirst(es, v).0 == [es[0]] + RemoveFirst(es[1..], v).0
  {
    assert es == [es[0]] + es[1..];
    HasValueAppend([es[0]], es[1..], v);
  }

  lemma SliceCons<T>(s: seq<T>, k: nat)
    requires k + 1 < |s|
    ensures s[..k + 1] + s[k + 2..] == [s[0]] + (s[1..][..k] + s[1..][k + 1..])
  {
    assert s[..k + 1] == [s[0]] + s[1..][..k];
    assert s[k + 2..] == s[1..][k + 1..];
  }

  /** Removing the first match from a concatenation removes it from the part
      that holds the first match. */
  lemma {:induction false} RemoveFirstAppend<E>(a: seq<Elem<E>>, b: seq<Elem<E>>, v: E)
    ensures RemoveFirst(a + b, v).0 ==
      if HasValue(a, v) then RemoveFirst(a, v).0 + b else a + RemoveFirst(b, v).0
  {
    if |a| == 0 {
      assert a + b == b;
    } else {
      var ab := a + b;
      assert ab[0] == a[0] && ab[1..] == a[1..] + b;
      RemoveFirstStep(ab, v);
      RemoveFirstStep(a, v);
      if a[0].value != v {
        RemoveFirstAppend(a[1..], b, v);
        ConsAppend(a[0], if HasValue(a[1..], v) then RemoveFirst(a[1..], v).0 else a[1..], b, RemoveFirst(b, v).0, HasValue(a[1..], v));
      }
    }
  }

  /** One step of removeElementFromCell's walk: a matching head is dropped,
      otherwise the walk continues in the tail. */
  lemma RemoveFirstStep<E>(es: seq<Elem<E>>, v: E)
    requires |es| > 0
    ensures HasValue(es, v) <==> es[0].value == v || HasValue(es[1..], v)
    ensures RemoveFirst(es, v).0 == if es[0].value == v then es[1..] else [es[0]] + RemoveFirst(es[1..], v).0
  {
    HasValueCons(es, v);
  }

  lemma HasValueCons<E>(es: seq<Elem<E>>, v: E)
    requires |es| > 0
    ensures HasValue(es, v) <==> es[0].value == v || HasValue(es[1..], v)
  {
    assert es == [es[0]] + es[1..];
    HasValueAppend([es[0]], es[1..], v);
  }

  lemma ConsAppend<T>(x: T, p: seq<T>, b: seq<T>, rb: seq<T>, found: bool)
    ensures [x] + (if found then p + b else p + rb) == if found then ([x] + p) + b else ([x] + p) + rb
  {
  }

  /** remove(E, cell): depth-first over the children in index order, deleting
      the first element with value `v`. It never merges. Seen on the
      depth-first element order, it is exactly RemoveFirst. */
  function RemoveValue<E(==)>(c: Cell<E>, v: E): (r: (Cell<E>, bool))
    ensures r.1 <==> HasValue(Elements(c), v)
    ensures Elements(r.0) == RemoveFirst(Elements(c), v).0
    ensures r.0.Leaf? == c.Leaf? && r.0.center == c.center && r.0.range == c.range && r.0.depth == c.depth
    ensures c.Node? ==> |r.0.children| == |c.children|
    ensures !r.1 ==> r.0 == c
    decreases c, 1
  {
    match c
    case Leaf(_, _, _, es) =>
      var (es', found) := RemoveFirst(es, v);
      (c.(elements := es'), found)
    case Node(_, _, _, cs) =>
      var (cs', found) := RemoveFromChildren(cs, 0, v);
      assert cs[0..] == cs && cs'[0..] == cs';
      (c.(children := cs'), found)
  }

  /** The loop over children `k..` of remove(E, cell): the first child that
      yields a removal is replaced, the others are kept. */
  function RemoveFromChildren<E(==)>(cs: seq<Cell<E>>, k: nat, v: E): (r: (seq<Cell<E>>, bool))
    requires k <= |cs|
    ensures |r.0| == |cs| && forall j :: 0 <= j < k ==> r.0[j] == cs[j]
    ensures forall j :: k <= j < |cs| ==> r.0[j] == cs[j] || r.0[j] == RemoveValue(cs[j], v).0
    ensures r.1 <==> HasValue(ElementsOfAll(cs[k..]), v)
    ensures ElementsOfAll(r.0[k..]) == RemoveFirst(ElementsOfAll(cs[k..]), v).0
    ensures !r.1 ==> r.0 == cs
    decreases cs, 0, |cs| - k
  {
    if k == |cs| then (cs, false)
    else
      var (c', found) := RemoveValue(cs[k], v);
      if found then
        ChildFoundStep(cs, k, c', v);
        (cs[k := c'], true)
      else
        var (cs', found') := RemoveFromChildren(cs, k + 1, v);
        ChildSkipStep(cs, cs', k, v);
        (cs', found')
  }

  /** remove(E, cell) never merges: the result has the cell structure of the
      input at every level. */
  lemma {:induction false} RemoveValueKeepsShape<E>(c: Cell<E>, v: E)
    ensures SameShape(c, RemoveValue(c, v).0)
    decreases c, 1
  {
    if c.Node? {
      var cs := c.children;
      RemoveFromChildrenKeepsShape(cs, 0, v);
      assert cs[0..] == cs;
    }
  }

  lemma {:induction false} RemoveFromChildrenKeepsShape<E>(cs: seq<Cell<E>>, k: nat, v: E)
    requires k <= |cs|
    ensures var r := RemoveFromChildren(cs, k, v).0;
      forall j :: 0 <= j < |cs| ==> SameShape(cs[j], r[j])
    decreases cs, 0
  {
    var r := RemoveFromChildren(cs, k, v).0;
    forall j | 0 <= j < |cs|
      ensures SameShape(cs[j], r[j])
    {
      if r[j] == cs[j] {
        SameShapeRefl(cs[j]);
      } else {
        RemoveValueKeepsShape(cs[j], v);
      }
    }
  }

  /** One step of the children loop when child `k` yields the removal. */
  lemma ChildFoundStep<E>(cs: seq<Cell<E>>, k: nat, c': Cell<E>, v: E)
    requires k < |cs| && HasValue(Elements(cs[k]), v)
    requires Elements(c') == RemoveFirst(Elements(cs[k]), v).0
    ensures HasValue(ElementsOfAll(cs[k..]), v)
    ensures ElementsOfAll(cs[k := c'][k..]) == RemoveFirst(ElementsOfAll(cs[k..]), v).0
  {
    var cs' := cs[k := c'];
    ElementsOfAllCons(cs, k);
    ElementsOfAllCons(cs', k);
    assert cs'[k + 1..] == cs[k + 1..];
    RemoveFirstAppend(Elements(cs[k]), ElementsOfAll(cs[k + 1..]), v);
    HasValueAppend(Elements(cs[k]), ElementsOfAll(cs[k + 1..]), v);
  }

  /** One step of the children loop when child `k` holds no match. */
  lemma ChildSkipStep<E>(cs: seq<Cell<E>>, cs': seq<Cell<E>>, k: nat, v: E)
    requires k < |cs| == |cs'| && cs'[k] == cs[k] && !HasValue(Elements(cs[k]), v)
    requires ElementsOfAll(cs'[k + 1..]) == RemoveFirst(ElementsOfAll(cs[k + 1..]), v).0
    ensures HasValue(ElementsOfAll(cs[k..]), v) <==> HasValue(ElementsOfAll(cs[k + 1..]), v)
    ensures ElementsOfAll(cs'[k..]) == RemoveFirst(ElementsOfAll(cs[k..]), v).0
  {
    ElementsOfAllCons(cs, k);
    ElementsOfAllCons(cs', k);
    RemoveFirstAppend(Elements(cs[k]), ElementsOfAll(cs[k + 1..]), v);
    HasValueAppend(Elements(cs[k]), ElementsOfAll(cs[k + 1..]), v);
  }

  lemma ElementsOfAllCons<E>(cs: seq<Cell<E>>, k: nat)
    requires k < |cs|
    ensures ElementsOfAll(cs[k..]) == Elements(cs[k]) + ElementsOfAll(cs[k + 1..])
  {
    assert cs[k..][1..] == cs[k + 1..];
  }

  /** Removal by value keeps the structural invariant and the capacity bound. */
  lemma {:induction false} RemoveValueValid<E>(c: Cell<E>, v: E, capacity: int, maxDepth: int)
    requires Valid(c, maxDepth)
    ensures Valid(RemoveValue(c, v).0, maxDepth)
    ensures Bounded(c, capacity, maxDepth) ==> Bounded(RemoveValue(c, v).0, capacity, maxDepth)
    decreases c
  {
    var r := RemoveValue(c, v).0;
    if c.Node? {
      var cs := c.children;
      forall j: nat | j < 8
        ensures Valid(r.children[j], maxDepth)
        ensures Bounded(c, capacity, maxDepth) ==> Bounded(r.children[j], capacity, maxDepth)
        ensures r.children[j].depth == cs[j].depth && r.children[j].center == cs[j].center
        ensures r.children[j].range == cs[j].range
        ensures forall x :: x in Elements(r.children[j]) ==> x in Elements(cs[j])
      {
        assert cs[0..] == cs;
        if r.children[j] != cs[j] {
          RemoveValueValid(cs[j], v, capacity, maxDepth);
          RemovedIsStored(Elements(cs[j]), v);
        }
      }
    }
  }

  /** Every element left after RemoveFirst was there before. */
  lemma RemovedIsStored<E>(es: seq<Elem<E>>, v: E)
    ensures forall x :: x in RemoveFirst(es, v).0 ==> x in es
  {
    var r := RemoveFirst(es, v);
    if r.1 {
      forall x | x in r.0
        ensures x in es
      {
        assert multiset(r.0)[x] > 0;
        assert multiset(es)[x] > 0;
      }
    }
  }

  /** The coordinate-directed edit of one leaf: route to the leaf `p` reaches
      and delete the first element with value `v` there, leaving every other
      cell as it was. */
  function RemoveAtLeaf<E(==)>(c: Cell<E>, p: Point, v: E): (r: (Cell<E>, bool))
    requires Shaped(c)
    ensures Shaped(r.0)
    ensures r.1 <==> HasValue(GetCell(c, p).elements, v)
    ensures GetCell(r.0, p).elements == RemoveFirst(GetCell(c, p).elements, v).0
    ensures !r.1 ==> r.0 == c
    ensures r.1 ==> multiset(Elements(r.0)) + multiset{FirstWith(GetCell(c, p).elements, v)} == multiset(Elements(c))
    ensures r.0.Leaf? == c.Leaf? && r.0.center == c.center && r.0.range == c.range && r.0.depth == c.depth
    ensures EditedAlong(c, r.0, p)
    decreases c
  {
    match c
    case Leaf(_, _, _, es) =>
      var (es', found) := RemoveFirst(es, v);
      (c.(elements := es'), found)
    case Node(center, _, _, cs) =>
      var i := Octant(center, p);
      var (child, found) := RemoveAtLeaf(cs[i], p, v);
      if found then
        EditChild(c, p, child, FirstWith(GetCell(cs[i], p).elements, v));
        (c.(children := cs[i := child]), true)
      else
        (c, false)
  }

  /** Replacing the child `p` routes to by a shaped cell that lacks one
      element `gone`: the node stays shaped, `p` now reaches the new child's
      leaf, and the node lacks exactly `gone`. */
  lemma EditChild<E>(c: Cell<E>, p: Point, child: Cell<E>, gone: Elem<E>)
    requires c.Node? && Shaped(c) && Shaped(child)
    requires multiset(Elements(child)) + multiset{gone} == multiset(Elements(c.children[Octant(c.center, p)]))
    ensures var n := c.(children := c.children[Octant(c.center, p) := child]);
      && Shaped(n) && GetCell(n, p) == GetCell(child, p) && GetCell(c, p) == GetCell(c.children[Octant(c.center, p)], p)
      && multiset(Elements(n)) + multiset{gone} == multiset(Elements(c))
  {
    var i := Octant(c.center, p);
    var n := c.(children := c.children[i := child]);
    assert Shaped(n) by {
      assert forall j :: 0 <= j < 8 ==> n.children[j] == child || n.children[j] == c.children[j];
    }
    ChildLacksOne(c.children, i, child, gone);
  }

  /** Replacing one child by a cell lacking exactly `gone` makes the children
      together lack exactly `gone`. */
  lemma ChildLacksOne<E>(cs: seq<Cell<E>>, i: nat, child: Cell<E>, gone: Elem<E>)
    requires i < |cs|
    requires multiset(Elements(child)) + multiset{gone} == multiset(Elements(cs[i]))
    ensures multiset(ElementsOfAll(cs[i := child])) + multiset{gone} == multiset(ElementsOfAll(cs))
  {
    ElementsOfAllUpdate(cs, i, child);
    ElementsOfAllAround(cs, i);
  }

  /** One step of the coordinate-directed edit at a node: edit the routed
      child, and replace it when the value was found there. */
  lemma RemoveAtLeafStep<E>(c: Cell<E>, p: Point, v: E)
    requires c.Node? && Shaped(c)
    ensures var i := Octant(c.center, p); var (child, found) := RemoveAtLeaf(c.children[i], p, v);
      RemoveAtLeaf(c, p, v) == if found then (c.(children := c.children[i := child]), true) else (c, false)
  {
  }

  /** The coordinate-directed edit keeps the invariant and the capacity bound. */
  lemma {:induction false} RemoveAtLeafValid<E>(c: Cell<E>, p: Point, v: E, capacity: int, maxDepth: int)
    requires Valid(c, maxDepth)
    ensures Shaped(c) && Valid(RemoveAtLeaf(c, p, v).0, maxDepth)
    ensures Shaped(c) && (Bounded(c, capacity, maxDepth) ==> Bounded(RemoveAtLeaf(c, p, v).0, capacity, maxDepth))
    decreases c
  {
    ValidIsShaped(c, maxDepth);
    var r := RemoveAtLeaf(c, p, v);
    if c.Node? && r.1 {
      var cs := c.children;
      var i := Octant(c.center, p);
      ValidIsShaped(cs[i], maxDepth);
      RemoveAtLeafValid(cs[i], p, v, capacity, maxDepth);
      var child := RemoveAtLeaf(cs[i], p, v).0;
      assert RemoveAtLeaf(cs[i], p, v).1;
      forall x | x in Elements(child)
        ensures x in Elements(cs[i])
      {
        assert multiset(Elements(child))[x] > 0;
        assert multiset(Elements(cs[i]))[x] > 0;
      }
      ReplaceChild(c, maxDepth, capacity, i, child);
    }
  }

  /** Replacing child `i` of a valid node by a valid cell with the same
      geometry, holding only elements the old child held, keeps the invariant;
      and the capacity bound too when the new child keeps it. */
  lemma ReplaceChild<E>(c: Cell<E>, maxDepth: int, capacity: int, i: nat, child: Cell<E>)
    requires c.Node? && Valid(c, maxDepth) && i < 8
    requires child.depth == c.children[i].depth && child.center == c.children[i].center && child.range == c.children[i].range
    requires Valid(child, maxDepth)
    requires forall x :: x in Elements(child) ==> x in Elements(c.children[i])
    requires Bounded(c.children[i], capacity, maxDepth) ==> Bounded(child, capacity, maxDepth)
    ensures Valid(c.(children := c.children[i := child]), maxDepth)
    ensures Bounded(c, capacity, maxDepth) ==> Bounded(c.(children := c.children[i := child]), capacity, maxDepth)
  {
    var cs := c.children;
    var n := c.(children := cs[i := child]);
    forall j: nat | j < 8
      ensures Valid(n.children[j], maxDepth)
      ensures Bounded(c, capacity, maxDepth) ==> Bounded(n.children[j], capacity, maxDepth)
      ensures n.children[j].depth == cs[j].depth && n.children[j].center == cs[j].center
      ensures n.children[j].range == cs[j].range
      ensures forall x :: x in Elements(n.children[j]) ==> x in Elements(cs[j])
    {
    }
  }

  /** mergeCellsIfNeeded's loop summing the sizes of the leaf children. */
  function LeafSizes<E>(cs: seq<Cell<E>>): (n: int)
    requires forall i :: 0 <= i < |cs| ==> cs[i].Leaf?
    ensures n == |ElementsOfAll(cs)|
  {
    if |cs| == 0 then 0 else |cs[0].elements| + LeafSizes(cs[1..])
  }

  /** mergeCellsIfNeeded: a node all of whose children are leaves holding
      exactly `capacity` elements in total becomes a leaf holding children
      0..7's elements in order; any other node is left as it is. */
  function MergeIfNeeded<E>(capacity: int, c: Cell<E>): (r: Cell<E>)
    requires c.Node?
    ensures r.Leaf? <==> (forall i :: 0 <= i < |c.children| ==> c.children[i].Leaf?) && |Elements(c)| == capacity
    ensures Elements(r) == Elements(c)
    ensures r.center == c.center && r.range == c.range && r.depth == c.depth
    ensures r.Node? ==> r == c
  {
    var cs := c.children;
    if exists i :: 0 <= i < |cs| && cs[i].Node? then c
    else if LeafSizes(cs) != capacity then c
    else Leaf(c.center, c.range, c.depth, ElementsOfAll(cs))
  }

  lemma MergeValid<E>(capacity: int, maxDepth: int, c: Cell<E>)
    requires c.Node? && Valid(c, maxDepth) && Bounded(c, capacity, maxDepth)
    ensures Valid(MergeIfNeeded(capacity, c), maxDepth)
    ensures Bounded(MergeIfNeeded(capacity, c), capacity, maxDepth)
  {
  }
}

=== FILE: split.dfy ===
/** divideCell: turning a full leaf into a node with eight leaf children and
    redistributing its elements by the routing rule. */
module Split {
  import opened Geometry
  import opened Cells

  /** The elements of `es` that routing around centre `c` sends to octant `i`,
      in their original relative order. */
  function Filter<E>(c: Point, es: seq<Elem<E>>, i: nat): (r: seq<Elem<E>>)
    ensures |r| <= |es|
    ensures forall k :: 0 <= k < |r| ==> r[k] in es && Octant(c, r[k].Pos()) == i
    ensures forall k :: 0 <= k < |es| && Octant(c, es[k].Pos()) == i ==> es[k] in r
  {
    if |es| == 0 then []
    else (if Octant(c, es[0].Pos()) == i then [es[0]] else []) + Filter(c, es[1..], i)
  }

  /** Each element is kept by exactly the filter of its own octant, as many
      times as it occurs: the eight filters partition the list. */
  lemma {:induction false} FilterCount<E>(c: Point, es: seq<Elem<E>>, i: nat, e: Elem<E>)
    ensures multiset(Filter(c, es, i))[e] == if Octant(c, e.Pos()) == i then multiset(es)[e] else 0
  {
    if |es| > 0 {
      FilterCount(c, es[1..], i, e);
      var head := if Octant(c, es[0].Pos()) == i then [es[0]] else [];
      assert multiset(Filter(c, es, i)) == multiset(head) + multiset(Filter(c, es[1..], i));
      assert es == [es[0]] + es[1..];
      assert multiset(es) == multiset{es[0]} + multiset(es[1..]);
    }
  }

  /** The redistribution loop of divideCell: each element, in list order, is
      appended to the child leaf its octant names. The result is the reference
      partition `Filter` appended to each child. */
  function Distribute<E>(c: Point, kids: seq<Cell<E>>, es: seq<Elem<E>>): (r: seq<Cell<E>>)
    requires |kids| == 8 && forall i :: 0 <= i < 8 ==> kids[i].Leaf?
    ensures |r| == 8
    ensures forall i: nat :: i < 8 ==> r[i] == kids[i].(elements := kids[i].elements + Filter(c, es, i))
    decreases |es|
  {
    if |es| == 0 then kids
    else
      var o := Octant(c, es[0].Pos());
      var kids' := kids[o := kids[o].(elements := kids[o].elements + [es[0]])];
      var r := Distribute(c, kids', es[1..]);
      DistributeStep(c, kids, es);
      r
  }

  /** Appending the first element to its octant's leaf, then the filters of
      the rest, appends the filters of the whole list. */
  lemma DistributeStep<E>(c: Point, kids: seq<Cell<E>>, es: seq<Elem<E>>)
    requires |kids| == 8 && (forall i :: 0 <= i < 8 ==> kids[i].Leaf?) && |es| > 0
    ensures var o := Octant(c, es[0].Pos());
      var kids' := kids[o := kids[o].(elements := kids[o].elements + [es[0]])];
      forall i: nat :: i < 8 ==> kids'[i].elements + Filter(c, es[1..], i) == kids[i].elements + Filter(c, es, i)
  {
    forall i: nat | i < 8
      ensures var o := Octant(c, es[0].Pos());
        var kids' := kids[o := kids[o].(elements := kids[o].elements + [es[0]])];
        kids'[i].elements + Filter(c, es[1..], i) == kids[i].elements + Filter(c, es, i)
    {
      FilterStep(c, es, i, kids[i].elements);
    }
  }

  /** The filter of a list is the first element's share followed by the
      filter of the rest. */
  lemma FilterStep<E>(c: Point, es: seq<Elem<E>>, i: nat, a: seq<Elem<E>>)
    requires |es| > 0
    ensures Octant(c, es[0].Pos()) == i ==> (a + [es[0]]) + Filter(c, es[1..], i) == a + Filter(c, es, i)
    ensures Octant(c, es[0].Pos()) != i ==> a + Filter(c, es[1..], i) == a + Filter(c, es, i)
  {
    var rest := Filter(c, es[1..], i);
    if Octant(c, es[0].Pos()) == i {
      assert Filter(c, es, i) == [es[0]] + rest;
      assert (a + [es[0]]) + rest == a + ([es[0]] + rest);
    } else {
      assert Filter(c, es, i) == [] + rest;
    }
  }

  /** The eight children of a split hold, between them, exactly the parent's
      elements. */
  lemma {:induction false} PartitionCount<E>(c: Point, es: seq<Elem<E>>, cs: seq<Cell<E>>, k: nat, e: Elem<E>)
    requires |cs| == 8 && k <= 8
    requires forall i: nat :: i < 8 ==> cs[i].Leaf? && cs[i].elements == Filter(c, es, i)
    ensures multiset(ElementsOfAll(cs[k..]))[e] == if k <= Octant(c, e.Pos()) then multiset(es)[e] else 0
    decreases 8 - k
  {
    if k < 8 {
      PartitionCount(c, es, cs, k + 1, e);
      FilterCount(c, es, k, e);
      assert cs[k..][1..] == cs[k + 1..];
    }
  }

  lemma PartitionMultiset<E>(c: Point, es: seq<Elem<E>>, cs: seq<Cell<E>>)
    requires |cs| == 8
    requires forall i: nat :: i < 8 ==> cs[i].Leaf? && cs[i].elements == Filter(c, es, i)
    ensures multiset(ElementsOfAll(cs)) == multiset(es)
  {
    var m := multiset(ElementsOfAll(cs));
    var n := multiset(es);
    forall e: Elem<E>
      ensures m[e] == n[e]
    {
      PartitionCount(c, es, cs, 0, e);
      assert cs[0..] == cs;
    }
    MultisetExt(ElementsOfAll(cs), es);
  }

  lemma MultisetExt<T>(a: seq<T>, b: seq<T>)
    requires forall e :: multiset(a)[e] == multiset(b)[e]
    ensures multiset(a) == multiset(b)
  {
  }

  /** divideCell: eight empty leaves at depth + 1 and half range, centred by
      the sign table, receive the parent's elements; the parent keeps its
      geometry and no elements. */
  function Divide<E>(c: Cell<E>): (d: Cell<E>)
    requires c.Leaf?
    ensures d.Node? && d.center == c.center && d.range == c.range && d.depth == c.depth
    ensures |d.children| == 8
    ensures forall i: nat :: i < 8 ==>
      d.children[i] == Leaf(ChildCenter(c.center, Half(c.range), i), Half(c.range), c.depth + 1, Filter(c.center, c.elements, i))
    ensures multiset(Elements(d)) == multiset(c.elements)
  {
    var h := Half(c.range);
    var empty := EmptyChildren(c.center, h, c.depth + 1);
    var kids := Distribute(c.center, empty, c.elements);
    FillEmpty(c.center, h, c.depth + 1, c.elements);
    PartitionMultiset(c.center, c.elements, kids);
    Node(c.center, c.range, c.depth, kids)
  }

  /** The eight empty leaves a split starts from. */
  function EmptyChildren<E>(center: Point, h: int, depth: int): (cs: seq<Cell<E>>)
    ensures |cs| == 8
    ensures forall i :: 0 <= i < 8 ==> cs[i] == Leaf(ChildCenter(center, h, i), h, depth, [])
  {
    seq(8, i requires 0 <= i < 8 => Leaf(ChildCenter(center, h, i), h, depth, []))
  }

  /** Redistributing into empty leaves leaves each holding its filter. */
  lemma FillEmpty<E>(center: Point, h: int, depth: int, es: seq<Elem<E>>)
    ensures var kids := Distribute(center, EmptyChildren(center, h, depth), es);
      forall i: nat :: i < 8 ==> kids[i] == Leaf(ChildCenter(center, h, i), h, depth, Filter(center, es, i))
  {
    var kids := Distribute(center, EmptyChildren<E>(center, h, depth), es);
    forall i: nat | i < 8
      ensures kids[i] == Leaf(ChildCenter(center, h, i), h, depth, Filter(center, es, i))
    {
      assert [] + Filter(center, es, i) == Filter(center, es, i);
    }
  }

  /** Splitting a leaf above the depth ceiling yields a valid node, and a leaf
      that respected the capacity yields children that respect it. */
  lemma DivideValid<E>(c: Cell<E>, capacity: int, maxDepth: int)
    requires c.Leaf? && 1 <= c.depth < maxDepth
    ensures Valid(Divide(c), maxDepth)
    ensures |c.elements| <= capacity ==> Bounded(Divide(c), capacity, maxDepth)
  {
    var d := Divide(c);
    forall i: nat | i < 8
      ensures Valid(d.children[i], maxDepth)
      ensures forall e :: e in Elements(d.children[i]) ==> Octant(c.center, e.Pos()) == i
      ensures |c.elements| <= capacity ==> Bounded(d.children[i], capacity, maxDepth)
    {
      var f := Filter(c.center, c.elements, i);
      assert d.children[i].elements == f;
      forall e | e in f
        ensures Octant(c.center, e.Pos()) == i
      {
        var k :| 0 <= k < |f| && f[k] == e;
      }
    }
  }
}
